=== FILE: README.md ===
# autoScheduler scheduling core in Dafny

This project models the scheduling engine of autoScheduler, a desktop
application that staffs a week of shifts from a roster of members. The
model covers:

- time ranges, members with weekly availability, and shifts;
- the `Scheduler` class: its conflict set, the conflict and overlap checks,
  and the list of available members;
- the scheduling run. It counts the assignments already present and staffs
  the fixed shifts in list order. It then moves each flexible shift to the
  best free half-hour slot and staffs it;
- the balanced assignment of one shift;
- the slot search;
- the calendar's grouping of overlapping shifts;
- three roster edits the dialogs perform: deleting a member, renaming a
  member and adding a conflict pair.

Everything is a pure function over immutable values. The run's deep copy,
and the in-place updates of the shared list, become new sequences. A shift
is processed by its position in one sequence. This matches the Python code,
where `fixed_shifts` and `flexible_shifts` alias the objects of
`scheduled_shifts`.

Modules, in dependency order:

- `Wrappers`: `Option` and `Result`.
- `Seqs`: counting, distinctness, subsequences, flattening.
- `Sorting`: one stable insertion sort. It stands for Python's `sorted` and
  `list.sort` in the three places the modelled code uses them.
- `TimeRanges`, `Shifts`, `Users`: the records and their checks, plus the
  merge of legacy hour blocks.
- `Engine`: the roster, the scheduler, and the checks it makes per candidate.
- `SlotSearch`: `_find_best_slot`.
- `Assignment`: `_assign_shift_balanced`.
- `Scheduling`: `schedule_shifts`.
- `Safety`: what a whole run guarantees.
- `Grouping`: `_group_overlapping_shifts`.
- `RosterEdits`: the delete, rename and add-conflict edits.

The random part of the balance score is a parameter. A run takes
`jitter(k, c)`, the tie-break draw of candidate `c` in the `k`-th staffing
call. Every guarantee in `Safety` holds for every `jitter`.

Candidates are ranked by `Assignment.Priority`, which is `cap - 11 * worked`.
The reason: the Python score is `10 * (target - worked) + (cap - worked) +
random` with the random part below 0.1. The term `10 * target` is the same
for every candidate of one call. The integer rest differs by at least one
whenever it differs at all. So the random part can only order candidates
whose priority is equal, and `BalanceScore` keeps exactly that order.

Running the scheduler on an already valid schedule does not always leave
it unchanged. The counter a run starts from includes the shift's own
existing assignments. So a member whose assignments already reach the cap
fails the availability check and loses every assignment, including valid
ones. `Safety.AtCapMemberUnassigned` proves this in general, and
`Safety.RescheduleDropsAtCapMember` gives a one-shift instance.

## Model

| member | source | states |
|---|---|---|
| `TimeRanges.FromMinutes` | scheduler_app.py:534-538 | Splitting minute offsets into hours with `// 60` and minutes with `% 60` loses nothing: the range has the given start and end offsets, and both minute fields lie in 0..59 |
| `TimeRanges.FromMinutesToMinutes` | scheduler_app.py:36-40 | Converting a range with minute fields in 0..59 to minute offsets and splitting it back gives the same range |
| `TimeRanges.OverlapsSymmetric` | scheduler_app.py:42-46 | Whether two ranges overlap does not depend on which one is asked |
| `TimeRanges.TouchingRangesDoNotOverlap` | scheduler_app.py:42-46 | Two ranges where one ends exactly when the other starts do not overlap, asked either way round |
| `TimeRanges.OverlapsIffCommonMinute` | scheduler_app.py:42-52 | Two non-empty ranges overlap exactly when some hour and minute lies inside both, by `contains_time` |
| `Shifts.Shift.DurationMinutes` | scheduler_app.py:199-203 | The duration added to the start offset gives the end offset, in minutes since midnight |
| `Shifts.OverlapsWithSymmetric` | scheduler_app.py:212-216 | Overlap of shifts is symmetric |
| `Shifts.DifferentDaysNeverOverlap` | scheduler_app.py:212-216 | Shifts on different days never overlap, whatever their times |
| `Shifts.OverlapsWithIffCommonMinute` | scheduler_app.py:199-216 | Two shifts of positive duration overlap exactly when they are on the same day and share a minute |
| `Users.User.IsAvailable` | scheduler_app.py:97-115 | Available exactly when the day has an entry and one single range of that day starts no later and ends no earlier than the request; a missing or empty day gives false |
| `Users.AnyCovers` | scheduler_app.py:111-115 | The scan of a day's ranges succeeds exactly when one single range starts no later and ends no earlier than the request |
| `Users.NewUser` | scheduler_app.py:82-95 | Name, cap and colour are kept. Non-empty availability is kept as given. Empty availability becomes days 0..6, each with one 00:00-24:00 range |
| `Users.DefaultAvailabilityCoversWeek` | scheduler_app.py:90-115 | A member created without availability is available exactly for requests on days 0..6 that start at or after midnight and end by the next midnight |
| `Users.MergeHourBlocks` | scheduler_app.py:160-182 | The merge returns nothing exactly for no blocks, and never more ranges than blocks. The ranges are whole-hour ranges, and consecutive merged ranges never touch |
| `Users.FuseRunsCoverage` | scheduler_app.py:168-182 | The merge loop covers an hour exactly when the open run or one of the remaining blocks covers it |
| `Users.MergeHourBlocksCoverage` | scheduler_app.py:160-182 | The merged ranges cover exactly the hours the input blocks cover: merging loses no availability and adds none |
| `Engine.NewScheduler` | scheduler_app.py:347-357 | The conflict set holds a pair exactly when the pair or its reverse was entered, so it is symmetric; the roster is kept |
| `Engine.Scheduler.HasConflict` | scheduler_app.py:359-364 | True exactly when some member already on the list forms a conflict pair with the candidate |
| `Engine.HasConflictSymmetric` | scheduler_app.py:355-364 | With a symmetric conflict set, `a` conflicts with the list `[b]` exactly when `b` conflicts with `[a]` |
| `Engine.ForwardCheckSuffices` | scheduler_app.py:355-364 | The code checks each member added to a list only against the earlier ones. With a symmetric conflict set, this rules out every conflicting pair in the list |
| `Engine.Scheduler.CheckUserOverlap` | scheduler_app.py:366-379 | True exactly when some shift with a different id lists the member and overlaps the shift |
| `Engine.Scheduler.GetAvailableUsers` | scheduler_app.py:381-404 | A name is returned exactly when it is a roster member below its cap, available for the shift's day and times, and not on an overlapping shift with another id. The names come in roster order without repeats |
| `SlotSearch.OverlapsAnyOther` | scheduler_app.py:548-556 | The test placement collides exactly when some shift with another id overlaps it |
| `SlotSearch.CountAvailable` | scheduler_app.py:558-566 | The count is the number of roster positions whose member is below the cap and available for the slot. So it is at most the roster size, zero exactly when nobody can work the slot, and the roster size exactly when everybody can |
| `SlotSearch.FindBestSlot` | scheduler_app.py:516-576 | No slot is returned exactly when no slot qualifies. A slot qualifies when it ends by midnight, collides with no other shift, and enough members can work it. Otherwise the returned slot qualifies, has the highest count among qualifying slots, and is the first in scan order with that count |
| `SlotSearch.SlotAtOnGrid` | scheduler_app.py:531-538 | Each scanned slot starts on the half-hour grid of a day in 0..6. Its end, split into hour and minute, is the start plus the shift's duration |
| `SlotSearch.FoundSlotIsValid` | scheduler_app.py:526-576 | A returned slot is on the grid and keeps the shift's duration. It ends by midnight, collides with no other shift, and at least the required number of members can work it |
| `Assignment.KeepValid` | scheduler_app.py:461-477 | The validation pass keeps a subsequence of the original list. Each kept member is in the roster, is not on an overlapping shift, is available, and conflicts with no member kept before it. Every original entry that passes the roster, overlap and availability checks is kept, or conflicts with a member on the kept list |
| `Assignment.KeepValidCompose` | scheduler_app.py:461-477 | Validating a list equals validating its first part and then continuing with the rest from the list that part left |
| `Assignment.KeepValidDecidedEarly` | scheduler_app.py:472-475 | Of two conflicting entries the earlier stays: an entry that passes the checks and is not kept conflicts with a prefix of the kept list built only from the entries before it |
| `Assignment.ValidatedFacts` | scheduler_app.py:461-477 | The kept list is a subsequence of the original and never holds a name more often than the original did. Every kept member is eligible for the shift, and the list holds no forward conflict. An eligible original entry is dropped only when it conflicts with a prefix of the kept list built from the entries before it |
| `Assignment.Without` | scheduler_app.py:486-487 | A candidate survives exactly when it is not already on the shift; order is kept |
| `Assignment.CheckUserOverlapIgnoresOwnEntry` | scheduler_app.py:366-379 | Replacing the shift's own list does not change any overlap check for that shift. So the second candidate query sees the same overlaps as the first |
| `Assignment.Rank` | scheduler_app.py:489-507 | The ranked list is a permutation of the candidates, ordered by non-increasing priority |
| `Assignment.FillGreedy` | scheduler_app.py:509-514 | The greedy loop only appends ranked candidates to the kept list. Once it appends anything, the list is no longer than the required staff. If the list ends shorter than required, every ranked candidate is on it or conflicts with a member on it |
| `Assignment.FillGreedySubseq` | scheduler_app.py:509-514 | The appended names form a subsequence of the ranked candidates |
| `Assignment.FillGreedyInOrder` | scheduler_app.py:509-514 | The fill consumes the ranking in order: a candidate left out while conflicting with no one on the list comes after every appended name |
| `Assignment.FillGreedyCompose` | scheduler_app.py:509-514 | Filling from a ranking equals filling from its first part and then continuing with the rest from the list and counters that part left |
| `Assignment.FillGreedyDecidedEarly` | scheduler_app.py:509-514 | Of two conflicting candidates the higher-ranked is taken: a candidate left off was turned away when the list held only names ranked before it, and the list was then full or held a member it conflicts with |
| `Assignment.FillGreedyNoConflict` | scheduler_app.py:509-514 | Each appended candidate conflicts with no member listed before it |
| `Assignment.FillGreedyFresh` | scheduler_app.py:509-514 | Candidates are distinct and not already on the list, so each appended name is new to the list |
| `Assignment.FillGreedyWorked` | scheduler_app.py:509-514 | A member's counter grows by one exactly when the loop appended that member |
| `Assignment.FillGreedyOccurrences` | scheduler_app.py:509-514 | A member's count on the list grows by exactly as much as its counter |
| `Assignment.AssignShiftBalanced` | scheduler_app.py:449-514 | Only the staffed shift's assignee list changes. The new list extends a subsequence of the old one and holds no conflicting pair. Every member on it is eligible for the shift as it was before the call. An eligible existing assignee stays unless it conflicts with the list. Any other eligible member is left off only when the list is full or the member conflicts with someone on it. Every newly added member has at least the priority of any eligible member left off who conflicts with no one on the list. Of two conflicting existing assignees the earlier stays. Every eligible member left off was turned away at a point of the list where each newcomer before it had at least its priority, and the list was full there or held a member it conflicts with. So members with fewer shifts worked come first, also when they conflict. Counters never decrease, and a counter grows by exactly one only for a member on the new list |
| `Assignment.FillPrefersPriority` | scheduler_app.py:456-514 | Every member the fill adds has at least the priority of any eligible member left off who conflicts with no one on the list |
| `Assignment.FillDecided` | scheduler_app.py:456-514 | Every eligible member the fill leaves off was turned away at a point where each newcomer before it had at least its priority, and the list was full there or held a member it conflicts with |
| `Assignment.FillComplete` | scheduler_app.py:461-514 | After validation and the greedy fill, an eligible member is missing from the list only when the list holds the required staff or the member conflicts with someone on it |
| `Scheduling.CountAssigned` | scheduler_app.py:418-422 | The counting loop keeps the set of counted names. It adds to each counter the number of times that name appears across all assignee lists |
| `Scheduling.InitialWorked` | scheduler_app.py:416-422 | The starting counter has exactly one key per roster member, holding the member's existing appearances. Names outside the roster count zero |
| `Scheduling.IndicesOf` | scheduler_app.py:424-430 | The positions of exactly the shifts of one type, in list order |
| `Scheduling.Placement` | scheduler_app.py:437-444 | Only the shift being processed can move, and in the fixed phase nothing moves. A flexible shift takes the slot the search returns, and stays where it is when the search returns none |
| `Scheduling.Run` | scheduler_app.py:406-447 | The run returns one shift per input shift; what it guarantees about them is stated by the `Safety` lemmas |
| `Scheduling.ScheduleShifts` | scheduler_app.py:406-447 | The output has one shift per input shift; what the run guarantees about them is stated by the `Safety` lemmas |
| `Scheduling.OccurrencesUpdate` | scheduler_app.py:416-422 | Replacing one shift changes a name's total count by the difference between the two lists' counts |
| `Scheduling.OccurrencesPositive` | scheduler_app.py:416-422 | A name is counted exactly when some shift lists it |
| `Safety.RunInvariant` | scheduler_app.py:406-447 | The run keeps the safety invariant over its two phases: processed shifts are staffed safely, and unprocessed ones are untouched |
| `Safety.ScheduleKeepsShape` | scheduler_app.py:406-447 | The output has the input's length, ids, names, types and required staff. Fixed shifts keep their times. A moved flexible shift sits on the grid with the same duration and overlaps no shift with another id. Each list extends a subsequence of the original |
| `Safety.NoConflictingPair` | scheduler_app.py:406-514 | No output shift lists two members who form a conflict pair |
| `Safety.AssigneesAvailable` | scheduler_app.py:406-514 | Every assignee in the output is a roster member available at the shift's final day and times |
| `Safety.CapRespected` | scheduler_app.py:406-514 | Every name that appears in the output is a roster member, and appears no more often than its weekly cap |
| `Safety.NoDoubleBooking` | scheduler_app.py:406-514 | When shift ids are distinct, no member is listed on two overlapping output shifts |
| `Safety.AtCapMemberUnassigned` | scheduler_app.py:416-477 | A member whose existing assignments already reach the cap appears on no output shift |
| `Safety.RescheduleDropsAtCapMember` | scheduler_app.py:416-477 | A valid one-shift schedule, staffed by a member with cap one, loses that member when it is scheduled again |
| `Grouping.MaxEnd` | scheduler_app.py:1091 | The running group end is at least the end of every shift in the group, and some shift of the group ends exactly then |
| `Grouping.Sweep` | scheduler_app.py:1080-1098 | The groups, concatenated, are the open group followed by the rest of the shifts, and no group is empty |
| `Grouping.SweepChained` | scheduler_app.py:1084-1096 | Each shift joining a group starts before the latest end of the shifts already in it |
| `Grouping.SweepSeparated` | scheduler_app.py:1084-1098 | Over start-sorted shifts, every shift of an earlier group ends no later than every shift of a later group starts |
| `Grouping.GroupOverlappingShifts` | scheduler_app.py:1070-1098 | No groups exactly for no shifts. The groups concatenate to the shifts sorted by start. Each group is non-empty and chained, and the groups are separated |
| `Grouping.GroupsPartitionInput` | scheduler_app.py:1075-1078 | The groups hold exactly the input shifts, sorted by start. Shifts with equal starts keep their input order |
| `Sorting.SortBy` | scheduler_app.py:1076-1078 | The sort returns a permutation of its input, ordered by key |
| `Sorting.SortByStable` | scheduler_app.py:1076-1078 | For every key, the elements with that key keep their input order |
| `RosterEdits.RemoveFirst` | scheduler_app.py:1399-1401 | Removing a present name cuts out exactly its first occurrence: what comes before and after it is kept as it was. A list without the name is unchanged |
| `RosterEdits.RemoveFirstMultiset` | scheduler_app.py:1368-1370 | Removing a present name takes out exactly one copy of it and shortens the list by one |
| `RosterEdits.RemoveFirstCount` | scheduler_app.py:1399-1401 | Removing a name drops exactly one occurrence of it when present, and leaves every other count alone |
| `RosterEdits.RemoveMember` | scheduler_app.py:1392 | The member leaves the roster and every other entry stays the same. The other names keep their order and their number of occurrences |
| `RosterEdits.DropPairsWith` | scheduler_app.py:1393-1397 | A pair survives exactly when neither side is the deleted member. The survivors keep their order, and each keeps every copy it had |
| `RosterEdits.DeleteUser` | scheduler_app.py:1392-1401 | The member leaves the roster; the other names keep their order. Exactly the pairs naming the member are dropped, the others kept in order with every copy. Each shift list loses the first occurrence of the member and keeps the rest in order; a list without the member is unchanged |
| `RosterEdits.MoveAssignment` | scheduler_app.py:1368-1370 | A list holding the old name loses its first occurrence, keeps the other entries in order, and gets the new name last. A list without the old name is unchanged |
| `RosterEdits.RenameMember` | scheduler_app.py:1356-1377 | The old entry leaves and the new record is stored under the new name, which goes last in the roster order. The other names keep their order, their entries stay, and the roster stays well formed |
| `RosterEdits.RenamePairs` | scheduler_app.py:1357-1365 | Each pair is renamed in place on both sides, and the list keeps its length. When the name changes, no pair names the old name afterwards |
| `RosterEdits.MoveAssignments` | scheduler_app.py:1366-1370 | Each shift's list loses the first occurrence of the old name, keeps its other entries in order, and gets the new name last. Lists without the old name and all other fields are unchanged |
| `RosterEdits.RenameUser` | scheduler_app.py:1349-1377 | Renaming fails exactly when the new name differs and is taken. Otherwise the new record is stored under the new name. When the name changes, the new name goes last in the roster order and the other names keep theirs. Each pair is renamed in place on both sides, and each shift list moves the first occurrence of the old name to the end as the new name. Keeping the name only replaces the record, in place |
| `RosterEdits.RenamePairsRoundTrip` | scheduler_app.py:1357-1365 | If no pair names `b`, renaming `a` to `b` and then `b` back to `a` restores the pairs |
| `RosterEdits.FindPair` | scheduler_app.py:2717-2721 | The duplicate scan succeeds exactly when some pair holds the two names in either orientation |
| `RosterEdits.AddConflict` | scheduler_app.py:2704-2724 | Each error happens exactly in its own case: a missing name, the same name twice, or a pair already present in either orientation. Otherwise the pair is appended |
| `RosterEdits.AddConflictKeepsWellFormed` | scheduler_app.py:2704-2724 | A pair list with no self pairs and no repeated unordered pair keeps both properties after a successful add |

## Left out

- The tkinter interface, themes, dialogs and the calendar drawing. Of the
  GUI code, only the three roster edits and the grouping the drawing uses
  are modelled.
- Persistence: `DataManager`, JSON files, and `to_dict`/`from_dict`. The
  hour-block merge that `from_dict` calls is modelled; the format detection
  around it is not.
- `__str__` and time formatting are presentation. Shift ids are made by the
  add-shift dialog from a counter (`shift_1`, `shift_2`, ...); the model
  takes ids as given.
- `random.random()` in the balance score is the `jitter` parameter. The
  floating-point score becomes the integer priority plus the draw.
- `Assignment.Priority`: the term `10 * target` of the Python score is
  dropped, because it is common to every candidate of one call and cannot
  change their order.
- Scheduling.Run: its own contract gives only the output's length. What a
  run guarantees is stated by the lemmas of module `Safety`, which imports
  `Scheduling`.
- Scheduling.ScheduleShifts: its own contract gives only the output's
  length, for the same reason.
- Users.NewUser: the cap and colour are always passed in. The record's
  defaults (cap 5, colour `#4A90D9`) are not modelled, because every
  construction in the code passes both. Loading a saved member supplies the
  same two values when they are missing; that is file loading, which is
  not modelled.
- `copy.deepcopy` is not modelled: values are immutable, so a copy is the
  value itself.
- Python's `//` and `%` agree with Dafny's Euclidean division here, because
  the divisor is 60 and positive.
- `Users.MergeHourBlocksCoverage` assumes each block starts no later than it
  ends. The Python code applies the merge only to one-hour blocks, which
  satisfy this.
- `Safety.NoDoubleBooking` assumes distinct shift ids. The overlap checks
  skip every shift that shares the processed shift's id, so two shifts with
  one id can be double-booked.
- The remove-conflict edit, and the edits of shifts made through dialogs,
  are not modelled. They are list edits with no scheduling logic.

=== FILE: assignment.dfy ===
/** `_assign_shift_balanced`: staffing one shift. Existing assignees are
    re-validated, then free places are filled greedily from the eligible
    members in ranked order. */
module Assignment {
  import opened Seqs
  import opened Sorting
  import opened Shifts
  import opened Engine

  /** `result` is a subsequence of `original` (the kept assignees) followed by
      new names, each new name different from every name before it; new names
      are only added while the list is shorter than `required`, so a list that
      gained names is at most `required` long, while an over-long kept list
      stays as it is. */
  ghost predicate ExtendsKept(original: seq<string>, result: seq<string>, required: int)
  {
    exists m :: KeptPrefix(original, result, required, m)
  }

  ghost predicate KeptPrefix(original: seq<string>, result: seq<string>, required: int, m: int)
  {
    && 0 <= m <= |result|
    && IsSubseq(result[..m], original)
    && (m < |result| ==> |result| <= required)
    && FreshFrom(result, m)
  }

  /** From position `from` on, no name conflicts with a name before it. */
  ghost predicate NoConflictFrom(conflicts: set<(string, string)>, names: seq<string>, from: int)
  {
    forall t, a :: from <= t < |names| && 0 <= a < t ==> (names[a], names[t]) !in conflicts
  }

  /** From position `from` on, every name differs from all names before it. */
  ghost predicate FreshFrom(names: seq<string>, from: int)
  {
    forall t :: 0 <= from <= t < |names| ==> names[t] !in names[..t]
  }

  /** The checks an existing assignee must pass besides the conflict test:
      in the roster, no overlapping booking, and in the eligible set
      `available`. */
  predicate Passes(s: Scheduler, shift: Shift, allShifts: seq<Shift>, available: seq<string>, u: string)
  {
    && u in s.roster.users
    && !s.CheckUserOverlap(u, shift, allShifts)
    && u in available
  }

  /** A list that extends `prefix` conflicts with every name `prefix`
      conflicts with. */
  lemma HasConflictExtends(s: Scheduler, prefix: seq<string>, list: seq<string>, u: string)
    requires |prefix| <= |list| && list[..|prefix|] == prefix
    requires s.HasConflict(prefix, u)
    ensures s.HasConflict(list, u)
  {
    var i :| 0 <= i < |prefix| && (prefix[i], u) in s.conflicts;
    assert list[i] == prefix[i];
  }

  /** The validation pass over the existing assignees `rest`, appending to
      `kept` each one that is in the roster, has no overlapping booking, is in
      the eligible set `available` and conflicts with no one kept before it. */
  function KeepValid(s: Scheduler, shift: Shift, allShifts: seq<Shift>, available: seq<string>,
                     kept: seq<string>, rest: seq<string>): (r: seq<string>)
    ensures |kept| <= |r| && r[..|kept|] == kept
    ensures IsSubseq(r[|kept|..], rest)
    ensures forall t :: |kept| <= t < |r| ==>
      && r[t] in s.roster.users
      && !s.CheckUserOverlap(r[t], shift, allShifts)
      && r[t] in available
    ensures NoConflictFrom(s.conflicts, r, |kept|)
    ensures forall u :: u in rest && Passes(s, shift, allShifts, available, u) ==> u in r || s.HasConflict(r, u)
    decreases |rest|
  {
    if |rest| == 0 then
      assert kept[|kept|..] == [];
      kept
    else
      var u := rest[0];
      var keep := Passes(s, shift, allShifts, available, u) && !s.HasConflict(kept, u);
      var kept' := if keep then kept + [u] else kept;
      var r := KeepValid(s, shift, allShifts, available, kept', rest[1..]);
      KeepValidStep(s, shift, allShifts, available, kept, u, r);
      KeptSubseq(kept, keep, rest, r);
      KeptOrBlocked(s, shift, allShifts, available, kept, rest, r);
      r
  }

  /** A head that passes the checks is either kept or blocked by a conflict
      with a name kept before it, which stays on the final list. */
  lemma KeptOrBlocked(s: Scheduler, shift: Shift, allShifts: seq<Shift>, available: seq<string>,
                      kept: seq<string>, rest: seq<string>, r: seq<string>)
    requires |rest| > 0
    requires var keep := Passes(s, shift, allShifts, available, rest[0]) && !s.HasConflict(kept, rest[0]);
      var kept' := if keep then kept + [rest[0]] else kept;
      && |kept'| <= |r| && r[..|kept'|] == kept'
      && forall v :: v in rest[1..] && Passes(s, shift, allShifts, available, v) ==> v in r || s.HasConflict(r, v)
    ensures forall v :: v in rest && Passes(s, shift, allShifts, available, v) ==> v in r || s.HasConflict(r, v)
  {
    var u := rest[0];
    var keep := Passes(s, shift, allShifts, available, u) && !s.HasConflict(kept, u);
    var kept' := if keep then kept + [u] else kept;
    assert r[..|kept|] == r[..|kept'|][..|kept|];
    if Passes(s, shift, allShifts, available, u) {
      if keep {
        assert r[|kept|] == kept'[|kept|] == u;
      } else {
        HasConflictExtends(s, kept, r, u);
      }
    }
    assert forall v :: v in rest ==> v == u || v in rest[1..];
  }

  /** The names a pass step adds after `kept` come from `rest`, whether its
      head `rest[0]` was kept or skipped. */
  lemma KeptSubseq(kept: seq<string>, keep: bool, rest: seq<string>, r: seq<string>)
    requires |rest| > 0
    requires var kept' := if keep then kept + [rest[0]] else kept;
      |kept'| <= |r| && r[..|kept'|] == kept' && IsSubseq(r[|kept'|..], rest[1..])
    ensures IsSubseq(r[|kept|..], rest)
  {
    var u := rest[0];
    var kept' := if keep then kept + [u] else kept;
    assert [u] + rest[1..] == rest;
    if keep {
      assert r[|kept|..] == [u] + r[|kept'|..] by {
        assert r[|kept|] == r[..|kept'|][|kept|];
      }
      SubseqAppendLeft(r[|kept'|..], rest[1..], u);
    } else {
      SubseqSkipLeft(r[|kept'|..], rest[1..], u);
    }
  }

  /** One step of the validation pass: what the rest of the pass guarantees
      after `u` was kept or skipped carries over to the list before. */
  lemma KeepValidStep(s: Scheduler, shift: Shift, allShifts: seq<Shift>, available: seq<string>,
                      kept: seq<string>, u: string, r: seq<string>)
    requires var keep := Passes(s, shift, allShifts, available, u) && !s.HasConflict(kept, u);
      var kept' := if keep then kept + [u] else kept;
      && |kept'| <= |r| && r[..|kept'|] == kept'
      && (forall t :: |kept'| <= t < |r| ==>
            && r[t] in s.roster.users
            && !s.CheckUserOverlap(r[t], shift, allShifts)
            && r[t] in available)
      && NoConflictFrom(s.conflicts, r, |kept'|)
    ensures |kept| <= |r| && r[..|kept|] == kept
    ensures forall t :: |kept| <= t < |r| ==>
      && r[t] in s.roster.users
      && !s.CheckUserOverlap(r[t], shift, allShifts)
      && r[t] in available
    ensures NoConflictFrom(s.conflicts, r, |kept|)
  {
    var keep := Passes(s, shift, allShifts, available, u) && !s.HasConflict(kept, u);
    var kept' := if keep then kept + [u] else kept;
    assert r[..|kept|] == r[..|kept'|][..|kept|];
    if keep {
      assert r[|kept|] == u;
      forall a | 0 <= a < |kept| ensures (r[a], u) !in s.conflicts {
        assert r[a] == kept[a];
      }
    }
  }

  /** The greedy fill: walks the ranked candidates, stops once `required`
      names are assigned, and appends each candidate that conflicts with no
      one already assigned, counting one more worked shift for it. */
  function FillGreedy(s: Scheduler, required: int, current: seq<string>, ranked: seq<string>, worked: Worked)
    : (r: (seq<string>, Worked))
    ensures |current| <= |r.0| && r.0[..|current|] == current
    ensures forall t :: |current| <= t < |r.0| ==> r.0[t] in ranked
    ensures |r.0| > |current| ==> |r.0| <= required
    ensures |r.0| < required ==> forall c :: c in ranked ==> c in r.0 || s.HasConflict(r.0, c)
    decreases |ranked|
  {
    if |ranked| == 0 || |current| >= required then
      (current, worked)
    else
      var c := ranked[0];
      assert forall x :: x in ranked <==> x == c || x in ranked[1..];
      if s.HasConflict(current, c) then
        var r := FillGreedy(s, required, current, ranked[1..], worked);
        HasConflictExtends(s, current, r.0, c);
        r
      else
        var current' := current + [c];
        var r := FillGreedy(s, required, current', ranked[1..], worked[c := Get(worked, c) + 1]);
        assert r.0[..|current|] == current by {
          assert r.0[..|current|] == r.0[..|current'|][..|current|];
        }
        assert r.0[|current|] == current'[|current|] == c;
        r
  }

  /** The names the fill appends form a subsequence of the ranking. */
  lemma {:induction false} FillGreedySubseq(s: Scheduler, required: int, current: seq<string>,
                                            ranked: seq<string>, worked: Worked)
    ensures var r := FillGreedy(s, required, current, ranked, worked);
      IsSubseq(r.0[|current|..], ranked)
    decreases |ranked|
  {
    var r := FillGreedy(s, required, current, ranked, worked);
    if |ranked| == 0 || |current| >= required {
      assert r.0[|current|..] == [];
    } else {
      var c := ranked[0];
      assert ranked == [c] + ranked[1..];
      if s.HasConflict(current, c) {
        assert r == FillGreedy(s, required, current, ranked[1..], worked);
        FillGreedySubseq(s, required, current, ranked[1..], worked);
        SubseqSkipLeft(r.0[|current|..], ranked[1..], c);
      } else {
        var current' := current + [c];
        var worked' := worked[c := Get(worked, c) + 1];
        assert r == FillGreedy(s, required, current', ranked[1..], worked');
        FillGreedySubseq(s, required, current', ranked[1..], worked');
        assert r.0[|current|..] == [c] + r.0[|current'|..];
        SubseqAppendLeft(r.0[|current'|..], ranked[1..], c);
      }
    }
  }

  /** The fill takes candidates in ranked order: a candidate left out while
      conflicting with no one on the list comes after every name that was
      appended. */
  lemma {:induction false} FillGreedyInOrder(s: Scheduler, required: int, current: seq<string>,
                                             ranked: seq<string>, worked: Worked)
    ensures var r := FillGreedy(s, required, current, ranked, worked);
      forall a :: 0 <= a < |ranked| && ranked[a] !in r.0 && !s.HasConflict(r.0, ranked[a]) ==>
        forall t :: |current| <= t < |r.0| ==> r.0[t] in ranked[..a]
    decreases |ranked|
  {
    var r := FillGreedy(s, required, current, ranked, worked);
    if |ranked| == 0 || |current| >= required {
    } else {
      var c := ranked[0];
      if s.HasConflict(current, c) {
        assert r == FillGreedy(s, required, current, ranked[1..], worked);
        FillGreedyInOrder(s, required, current, ranked[1..], worked);
        HasConflictExtends(s, current, r.0, c);
        forall a | 0 < a < |ranked| && ranked[a] !in r.0 && !s.HasConflict(r.0, ranked[a])
          ensures forall t :: |current| <= t < |r.0| ==> r.0[t] in ranked[..a]
        {
          TailPrefix(ranked, a);
        }
      } else {
        var current' := current + [c];
        var worked' := worked[c := Get(worked, c) + 1];
        assert r == FillGreedy(s, required, current', ranked[1..], worked');
        FillGreedyInOrder(s, required, current', ranked[1..], worked');
        assert r.0[|current|] == c;
        forall a | 0 < a < |ranked| && ranked[a] !in r.0 && !s.HasConflict(r.0, ranked[a])
          ensures forall t :: |current| <= t < |r.0| ==> r.0[t] in ranked[..a]
        {
          TailPrefix(ranked, a);
          assert ranked[..a][0] == c;
        }
      }
    }
  }

  /** Position `a` of a ranking is position `a - 1` of its tail, and the
      tail's prefix before it lies in the ranking's prefix. */
  lemma TailPrefix(ranked: seq<string>, a: int)
    requires 0 < a < |ranked|
    ensures ranked[a] == ranked[1..][a - 1]
    ensures forall x :: x in ranked[1..][..a - 1] ==> x in ranked[..a]
  {
    assert ranked[1..][..a - 1] == ranked[..a][1..];
  }

  // ---------------------------------------------------------------------------
  // Who wins a conflict: both passes decide each entry against the list built
  // from the entries before it, so the earlier entry (or the higher-ranked
  // candidate) of a conflicting pair is the one that stays.
  // ---------------------------------------------------------------------------

  /** Of two conflicting eligible assignees of `shift`, the earlier stays on
      `list`: an eligible assignee left off is blocked by earlier entries. */
  ghost predicate EarlierKept(s: Scheduler, worked: Worked, shift: Shift, allShifts: seq<Shift>, list: seq<string>)
  {
    forall a :: 0 <= a < |shift.assignedUsers| && s.Eligible(shift.assignedUsers[a], shift, worked, allShifts) &&
                shift.assignedUsers[a] !in list ==>
      BlockedByEarlier(s, shift.assignedUsers, list, a)
  }

  /** Every eligible member left off `list` was turned away by newcomers of
      at least its priority, at a full list or by a conflict. */
  ghost predicate LeftOffDecided(s: Scheduler, worked: Worked, shift: Shift, allShifts: seq<Shift>, list: seq<string>)
  {
    forall v :: s.Eligible(v, shift, worked, allShifts) && v !in list ==>
      DecidedBefore(s, worked, shift.assignedUsers, list, shift.requiredStaff, v)
  }

  /** Entry `a` of `orig`, left off `list`, conflicts with a prefix of `list`
      built only from entries of `orig` before `a`. */
  ghost predicate BlockedByEarlier(s: Scheduler, orig: seq<string>, list: seq<string>, a: int)
  {
    0 <= a < |orig| &&
    exists p :: 0 <= p <= |list| && IsSubseq(list[..p], orig[..a]) && s.HasConflict(list[..p], orig[a])
  }

  /** `v` was turned away at some point `p` of `list`: every name added
      before `p` that was not an original assignee has at least `v`'s
      priority, and at `p` the list was full or held a member `v`
      conflicts with. */
  ghost predicate DecidedBefore(s: Scheduler, worked: Worked, orig: seq<string>, list: seq<string>, required: int, v: string)
  {
    exists p :: 0 <= p <= |list| && NewcomersAtLeast(s, worked, orig, list, p, v) &&
      (p >= required || s.HasConflict(list[..p], v))
  }

  /** Every name among the first `p` of `list` that was not an original
      assignee has at least `v`'s priority. */
  ghost predicate NewcomersAtLeast(s: Scheduler, worked: Worked, orig: seq<string>, list: seq<string>, p: int, v: string)
  {
    forall t :: 0 <= t < p && t < |list| && list[t] !in orig ==> Priority(s, worked, list[t]) >= Priority(s, worked, v)
  }

  /** Positions `from` to `p` of `list` hold names ranked before `ranked[a]`. */
  ghost predicate RankedBefore(list: seq<string>, from: int, p: int, ranked: seq<string>, a: int)
  {
    forall t :: 0 <= from <= t < p && t < |list| ==> 0 <= a <= |ranked| && list[t] in ranked[..a]
  }

  /** Candidate `ranked[a]`, left off `list`, was turned away at some point
      `p` after the first `from` names: the names added before `p` are all
      ranked before it, and at `p` the list was full or held a member it
      conflicts with. */
  ghost predicate TurnedAway(s: Scheduler, required: int, from: int, list: seq<string>, ranked: seq<string>, a: int)
  {
    && 0 <= from
    && 0 <= a < |ranked|
    && exists p :: from <= p <= |list| && RankedBefore(list, from, p, ranked, a) &&
         (p >= required || s.HasConflict(list[..p], ranked[a]))
  }

  /** The validation pass over `rest` is the pass over `rest[a..]` started
      from the list the pass over `rest[..a]` leaves. */
  lemma {:induction false} KeepValidCompose(s: Scheduler, shift: Shift, allShifts: seq<Shift>, available: seq<string>,
                                            kept: seq<string>, rest: seq<string>, a: nat)
    requires a <= |rest|
    ensures KeepValid(s, shift, allShifts, available, kept, rest)
         == KeepValid(s, shift, allShifts, available, KeepValid(s, shift, allShifts, available, kept, rest[..a]), rest[a..])
    decreases a
  {
    if a == 0 {
      assert rest[..0] == [] && rest[0..] == rest;
    } else {
      var u := rest[0];
      var keep := Passes(s, shift, allShifts, available, u) && !s.HasConflict(kept, u);
      var kept' := if keep then kept + [u] else kept;
      assert rest[..a][0] == u;
      assert rest[..a][1..] == rest[1..][..a - 1];
      assert rest[1..][a - 1..] == rest[a..];
      assert KeepValid(s, shift, allShifts, available, kept, rest)
          == KeepValid(s, shift, allShifts, available, kept', rest[1..]);
      assert KeepValid(s, shift, allShifts, available, kept, rest[..a])
          == KeepValid(s, shift, allShifts, available, kept', rest[..a][1..]);
      KeepValidCompose(s, shift, allShifts, available, kept', rest[1..], a - 1);
    }
  }

  /** A head that passes the checks and still is not kept conflicts with
      the list it was checked against. */
  lemma KeepValidHead(s: Scheduler, shift: Shift, allShifts: seq<Shift>, available: seq<string>,
                      kept: seq<string>, rest: seq<string>)
    ensures |rest| > 0 && Passes(s, shift, allShifts, available, rest[0]) &&
            rest[0] !in KeepValid(s, shift, allShifts, available, kept, rest) ==>
      s.HasConflict(kept, rest[0])
  {
    if |rest| > 0 && Passes(s, shift, allShifts, available, rest[0]) && !s.HasConflict(kept, rest[0]) {
      var kept' := kept + [rest[0]];
      var r := KeepValid(s, shift, allShifts, available, kept', rest[1..]);
      assert r == KeepValid(s, shift, allShifts, available, kept, rest);
      assert r[..|kept'|] == kept';
      assert r[|kept|] == rest[0];
    }
  }

  /** An entry that passes the checks but is not kept was blocked by the
      names kept from the entries before it. */
  lemma KeepValidBlockedEarlier(s: Scheduler, shift: Shift, allShifts: seq<Shift>, available: seq<string>,
                                kept: seq<string>, rest: seq<string>, a: nat)
    requires a < |rest|
    requires Passes(s, shift, allShifts, available, rest[a])
    requires rest[a] !in KeepValid(s, shift, allShifts, available, kept, rest)
    ensures var r := KeepValid(s, shift, allShifts, available, kept, rest);
      exists p :: |kept| <= p <= |r| && IsSubseq(r[|kept|..p], rest[..a]) && s.HasConflict(r[..p], rest[a])
  {
    var r := KeepValid(s, shift, allShifts, available, kept, rest);
    var q := KeepValid(s, shift, allShifts, available, kept, rest[..a]);
    KeepValidCompose(s, shift, allShifts, available, kept, rest, a);
    assert rest[a..][0] == rest[a];
    KeepValidHead(s, shift, allShifts, available, q, rest[a..]);
    assert r[..|q|] == q;
    assert r[|kept|..|q|] == q[|kept|..];
  }

  /** The validation pass keeps the earlier of two conflicting entries: an
      entry that passes the checks and is not kept conflicts with a name
      kept from the entries before it. */
  lemma KeepValidDecidedEarly(s: Scheduler, shift: Shift, allShifts: seq<Shift>, available: seq<string>,
                              kept: seq<string>, rest: seq<string>)
    ensures var r := KeepValid(s, shift, allShifts, available, kept, rest);
      forall a :: 0 <= a < |rest| && Passes(s, shift, allShifts, available, rest[a]) && rest[a] !in r ==>
        exists p :: |kept| <= p <= |r| && IsSubseq(r[|kept|..p], rest[..a]) && s.HasConflict(r[..p], rest[a])
  {
    var r := KeepValid(s, shift, allShifts, available, kept, rest);
    forall a | 0 <= a < |rest| && Passes(s, shift, allShifts, available, rest[a]) && rest[a] !in r
      ensures exists p :: |kept| <= p <= |r| && IsSubseq(r[|kept|..p], rest[..a]) && s.HasConflict(r[..p], rest[a])
    {
      KeepValidBlockedEarlier(s, shift, allShifts, available, kept, rest, a);
    }
  }

  /** The fill over `ranked` is the fill over `ranked[a..]` started from
      the list and counter the fill over `ranked[..a]` leaves. */
  lemma {:induction false} FillGreedyCompose(s: Scheduler, required: int, current: seq<string>,
                                             ranked: seq<string>, worked: Worked, a: nat)
    requires a <= |ranked|
    ensures FillSplits(s, required, current, ranked, worked, a)
    decreases a
  {
    if a == 0 {
      assert ranked[..0] == [] && ranked[0..] == ranked;
    } else if |current| >= required {
      assert FillGreedy(s, required, current, ranked[..a], worked) == (current, worked);
    } else {
      var c := ranked[0];
      var hit := s.HasConflict(current, c);
      var current' := if hit then current else current + [c];
      var worked' := if hit then worked else worked[c := Get(worked, c) + 1];
      FillGreedyCompose(s, required, current', ranked[1..], worked', a - 1);
      FillGreedyComposeStep(s, required, current, ranked, worked, a);
    }
  }

  /** Running the fill over `ranked` equals running it over `ranked[..a]`
      and then over `ranked[a..]`. */
  ghost predicate FillSplits(s: Scheduler, required: int, current: seq<string>, ranked: seq<string>, worked: Worked, a: nat)
    requires a <= |ranked|
  {
    var q := FillGreedy(s, required, current, ranked[..a], worked);
    FillGreedy(s, required, current, ranked, worked) == FillGreedy(s, required, q.0, ranked[a..], q.1)
  }

  /** The inductive step of `FillGreedyCompose`: a split of the tail after
      one fill step is a split of the whole ranking. */
  lemma FillGreedyComposeStep(s: Scheduler, required: int, current: seq<string>, ranked: seq<string>, worked: Worked, a: nat)
    requires 0 < a <= |ranked| && |current| < required
    requires var c := ranked[0];
      var hit := s.HasConflict(current, c);
      FillSplits(s, required, if hit then current else current + [c], ranked[1..],
                 if hit then worked else worked[c := Get(worked, c) + 1], a - 1)
    ensures FillSplits(s, required, current, ranked, worked, a)
  {
    var c := ranked[0];
    assert ranked[..a][0] == c;
    assert ranked[..a][1..] == ranked[1..][..a - 1];
    assert ranked[1..][a - 1..] == ranked[a..];
    FillGreedyUnfold(s, required, current, ranked, worked);
    FillGreedyUnfold(s, required, current, ranked[..a], worked);
  }

  /** One step of the fill on a list that is not yet full. */
  lemma FillGreedyUnfold(s: Scheduler, required: int, current: seq<string>, ranked: seq<string>, worked: Worked)
    requires |ranked| > 0 && |current| < required
    ensures var c := ranked[0];
      var hit := s.HasConflict(current, c);
      FillGreedy(s, required, current, ranked, worked)
        == FillGreedy(s, required, if hit then current else current + [c], ranked[1..],
                      if hit then worked else worked[c := Get(worked, c) + 1])
  {
  }

  /** A head candidate the fill leaves off a list that is not yet full
      conflicts with that list. */
  lemma FillGreedyHead(s: Scheduler, required: int, current: seq<string>, ranked: seq<string>, worked: Worked)
    ensures |ranked| > 0 && |current| < required && ranked[0] !in FillGreedy(s, required, current, ranked, worked).0 ==>
      s.HasConflict(current, ranked[0])
  {
    if |ranked| > 0 && |current| < required && !s.HasConflict(current, ranked[0]) {
      var c := ranked[0];
      var current' := current + [c];
      var r := FillGreedy(s, required, current', ranked[1..], worked[c := Get(worked, c) + 1]);
      assert r == FillGreedy(s, required, current, ranked, worked);
      assert r.0[..|current'|] == current';
      assert r.0[|current|] == c;
    }
  }

  /** A candidate the fill leaves off was turned away when its turn came:
      the list then held only names ranked before it, and was full or held
      a member it conflicts with. */
  lemma FillGreedyBlockedEarlier(s: Scheduler, required: int, current: seq<string>,
                                 ranked: seq<string>, worked: Worked, a: nat)
    requires a < |ranked|
    requires ranked[a] !in FillGreedy(s, required, current, ranked, worked).0
    ensures TurnedAway(s, required, |current|, FillGreedy(s, required, current, ranked, worked).0, ranked, a)
  {
    var r := FillGreedy(s, required, current, ranked, worked).0;
    var q := FillGreedy(s, required, current, ranked[..a], worked);
    FillGreedyCompose(s, required, current, ranked, worked, a);
    assert FillSplits(s, required, current, ranked, worked, a);
    assert ranked[a..][0] == ranked[a];
    FillGreedyHead(s, required, q.0, ranked[a..], q.1);
    FillGreedySubseq(s, required, current, ranked[..a], worked);
    SubseqMembers(q.0[|current|..], ranked[..a]);
    assert r[..|q.0|] == q.0;
    forall t | |current| <= t < |q.0| ensures r[t] in ranked[..a] {
      assert r[t] == q.0[t] == q.0[|current|..][t - |current|];
    }
    assert RankedBefore(r, |current|, |q.0|, ranked, a);
  }

  /** The fill takes the higher-ranked of two conflicting candidates: a
      candidate left off was turned away when the list held only names
      ranked before it. */
  lemma FillGreedyDecidedEarly(s: Scheduler, required: int, current: seq<string>, ranked: seq<string>, worked: Worked)
    ensures var r := FillGreedy(s, required, current, ranked, worked).0;
      forall a :: 0 <= a < |ranked| && ranked[a] !in r ==> TurnedAway(s, required, |current|, r, ranked, a)
  {
    var r := FillGreedy(s, required, current, ranked, worked).0;
    forall a | 0 <= a < |ranked| && ranked[a] !in r
      ensures TurnedAway(s, required, |current|, r, ranked, a)
    {
      FillGreedyBlockedEarlier(s, required, current, ranked, worked, a);
    }
  }

  lemma TailFacts(ranked: seq<string>)
    requires |ranked| > 0
    requires Distinct(ranked)
    ensures Distinct(ranked[1..])
    ensures forall x :: x in ranked[1..] ==> x != ranked[0] && x in ranked
  {
    forall x | x in ranked[1..] ensures x != ranked[0] && x in ranked {
      var i :| 0 <= i < |ranked[1..]| && ranked[1..][i] == x;
      assert ranked[i + 1] == x;
    }
    forall i, j | 0 <= i < j < |ranked[1..]| ensures ranked[1..][i] != ranked[1..][j] {
      assert ranked[1..][i] == ranked[i + 1] && ranked[1..][j] == ranked[j + 1];
    }
  }

  /** Every name the greedy fill appends conflicts with no name before it. */
  lemma {:induction false} FillGreedyNoConflict(s: Scheduler, required: int, current: seq<string>,
                                                ranked: seq<string>, worked: Worked)
    ensures NoConflictFrom(s.conflicts, FillGreedy(s, required, current, ranked, worked).0, |current|)
    decreases |ranked|
  {
    if |ranked| == 0 || |current| >= required {
    } else {
      var c := ranked[0];
      if s.HasConflict(current, c) {
        assert FillGreedy(s, required, current, ranked, worked) == FillGreedy(s, required, current, ranked[1..], worked);
        FillGreedyNoConflict(s, required, current, ranked[1..], worked);
      } else {
        var current' := current + [c];
        var worked' := worked[c := Get(worked, c) + 1];
        FillGreedyNoConflict(s, required, current', ranked[1..], worked');
        var r := FillGreedy(s, required, current', ranked[1..], worked');
        assert FillGreedy(s, required, current, ranked, worked) == r;
        assert r.0[..|current'|] == current';
        assert r.0[|current|] == c;
        forall t, a | |current| <= t < |r.0| && 0 <= a < t ensures (r.0[a], r.0[t]) !in s.conflicts {
          if t == |current| {
            assert r.0[a] == current'[a] == current[a];
            assert r.0[t] == current'[t] == c;
          }
        }
      }
    }
  }

  /** With distinct candidates none of which is assigned yet, the appended
      names are new: each differs from every name before it. */
  lemma {:induction false} FillGreedyFresh(s: Scheduler, required: int, current: seq<string>,
                                           ranked: seq<string>, worked: Worked)
    requires Distinct(ranked)
    requires forall c :: c in ranked ==> c !in current
    ensures FreshFrom(FillGreedy(s, required, current, ranked, worked).0, |current|)
    decreases |ranked|
  {
    if |ranked| == 0 || |current| >= required {
    } else {
      var c := ranked[0];
      TailFacts(ranked);
      if s.HasConflict(current, c) {
        assert FillGreedy(s, required, current, ranked, worked) == FillGreedy(s, required, current, ranked[1..], worked);
        FillGreedyFresh(s, required, current, ranked[1..], worked);
      } else {
        var current' := current + [c];
        var worked' := worked[c := Get(worked, c) + 1];
        FillGreedyFresh(s, required, current', ranked[1..], worked');
        var r := FillGreedy(s, required, current', ranked[1..], worked');
        assert FillGreedy(s, required, current, ranked, worked) == r;
        assert r.0[..|current'|] == current';
        forall t | |current| <= t < |r.0| ensures r.0[t] !in r.0[..t] {
          if t == |current| {
            assert r.0[..t] == current;
            assert r.0[t] == current'[t] == c;
          }
        }
      }
    }
  }

  /** Each appended name is counted exactly once more in the worked map and
      no other count changes. */
  lemma {:induction false} FillGreedyWorked(s: Scheduler, required: int, current: seq<string>,
                                            ranked: seq<string>, worked: Worked)
    requires Distinct(ranked)
    ensures var r := FillGreedy(s, required, current, ranked, worked);
      forall u :: Get(r.1, u) == Get(worked, u) + (if u in r.0[|current|..] then 1 else 0)
    decreases |ranked|
  {
    var r := FillGreedy(s, required, current, ranked, worked);
    if |ranked| == 0 || |current| >= required {
      assert r.0[|current|..] == [];
    } else {
      var c := ranked[0];
      TailFacts(ranked);
      if s.HasConflict(current, c) {
        assert r == FillGreedy(s, required, current, ranked[1..], worked);
        FillGreedyWorked(s, required, current, ranked[1..], worked);
      } else {
        var current' := current + [c];
        var worked' := worked[c := Get(worked, c) + 1];
        FillGreedyWorked(s, required, current', ranked[1..], worked');
        assert r == FillGreedy(s, required, current', ranked[1..], worked');
        assert c !in r.0[|current'|..] by {
          forall t | 0 <= t < |r.0[|current'|..]| ensures r.0[|current'|..][t] != c {
            assert r.0[|current'| + t] in ranked[1..];
          }
        }
        WorkedAppend(worked, current, c, r.0, r.1);
      }
    }
  }

  /** Appending `c` with one more worked shift, followed by further
      appends that do not repeat `c`. */
  lemma WorkedAppend(worked: Worked, current: seq<string>, c: string, final: seq<string>, w2: Worked)
    requires |current| + 1 <= |final| && final[..|current| + 1] == current + [c]
    requires c !in final[|current| + 1..]
    requires forall u :: Get(w2, u) == Get(worked[c := Get(worked, c) + 1], u) + (if u in final[|current| + 1..] then 1 else 0)
    ensures forall u :: Get(w2, u) == Get(worked, u) + (if u in final[|current|..] then 1 else 0)
  {
    assert final[|current|..] == [c] + final[|current| + 1..] by {
      assert final[|current|] == final[..|current| + 1][|current|];
    }
  }

  /** The occurrence count of every name grows by exactly its worked-count increase. */
  lemma {:induction false} FillGreedyOccurrences(s: Scheduler, required: int, current: seq<string>,
                                                 ranked: seq<string>, worked: Worked)
    ensures var r := FillGreedy(s, required, current, ranked, worked);
      forall u :: Count(r.0, u) == Count(current, u) + Get(r.1, u) - Get(worked, u)
    decreases |ranked|
  {
    var r := FillGreedy(s, required, current, ranked, worked);
    if |ranked| == 0 || |current| >= required {
    } else {
      var c := ranked[0];
      if s.HasConflict(current, c) {
        assert r == FillGreedy(s, required, current, ranked[1..], worked);
        FillGreedyOccurrences(s, required, current, ranked[1..], worked);
      } else {
        var current' := current + [c];
        var worked' := worked[c := Get(worked, c) + 1];
        FillGreedyOccurrences(s, required, current', ranked[1..], worked');
        assert r == FillGreedy(s, required, current', ranked[1..], worked');
        forall u ensures Count(current', u) == Count(current, u) + (if u == c then 1 else 0) {
          CountAppend(current, [c], u);
        }
      }
    }
  }

  /** The candidates not already assigned, in their order. */
  function Without(candidates: seq<string>, excluded: seq<string>): (r: seq<string>)
    ensures forall c :: c in r <==> c in candidates && c !in excluded
    ensures IsSubseq(r, candidates)
  {
    if |candidates| == 0 then []
    else
      var rest := Without(candidates[1..], excluded);
      assert forall c :: c in candidates <==> c == candidates[0] || c in candidates[1..];
      assert [candidates[0]] + candidates[1..] == candidates;
      if candidates[0] !in excluded then
        SubseqAppendLeft(rest, candidates[1..], candidates[0]);
        [candidates[0]] + rest
      else
        SubseqSkipLeft(rest, candidates[1..], candidates[0]);
        rest
  }

  /** The overlap scan excludes the shift's own entry by id, so it does not
      matter which assignee list that entry currently holds. */
  lemma CheckUserOverlapIgnoresOwnEntry(s: Scheduler, u: string, allShifts: seq<Shift>, idx: nat, names: seq<string>)
    requires idx < |allShifts|
    ensures var updated := allShifts[idx := allShifts[idx].(assignedUsers := names)];
      s.CheckUserOverlap(u, updated[idx], updated) == s.CheckUserOverlap(u, allShifts[idx], allShifts)
  {
    var updated := allShifts[idx := allShifts[idx].(assignedUsers := names)];
    if s.CheckUserOverlap(u, updated[idx], updated) {
      var j :| 0 <= j < |updated| && updated[j].id != updated[idx].id &&
               u in updated[j].assignedUsers && updated[idx].OverlapsWith(updated[j]);
      assert j != idx;
      assert allShifts[j].id != allShifts[idx].id && u in allShifts[j].assignedUsers && allShifts[idx].OverlapsWith(allShifts[j]);
    }
    if s.CheckUserOverlap(u, allShifts[idx], allShifts) {
      var j :| 0 <= j < |allShifts| && allShifts[j].id != allShifts[idx].id &&
               u in allShifts[j].assignedUsers && allShifts[idx].OverlapsWith(allShifts[j]);
      assert j != idx;
      assert updated[j].id != updated[idx].id && u in updated[j].assignedUsers && updated[idx].OverlapsWith(updated[j]);
    }
  }

  /** Scores differ between candidates of one call only through the shifts
      already worked and the cap: with target `t`, worked count `w` and cap
      `m` the balance score is 10 * (t - w) + (m - w) plus a random amount
      below 0.1, and `10 * t` is common to all candidates. So candidates are
      ranked by `m - 11 * w`, the random amount only breaking ties. */
  function Priority(s: Scheduler, worked: Worked, c: string): int
  {
    if c in s.roster.users then s.roster.Cap(c) - 11 * Get(worked, c) else 0
  }

  /** Number of distinct tie-break values a candidate can draw. */
  const TieBreakRange := 1000

  /** The balance score with its random part supplied as `draw`: the
      priority decides, the draw only orders candidates of equal priority. */
  function BalanceScore(s: Scheduler, worked: Worked, c: string, draw: nat): int
  {
    Priority(s, worked, c) * TieBreakRange + draw % TieBreakRange
  }

  /** The candidates sorted by balance score, highest first; Python's sort
      with `reverse=True` is stable, so it is the stable ascending sort by
      the negated score. `jitter` supplies each candidate's random draw. */
  function Rank(s: Scheduler, worked: Worked, candidates: seq<string>, jitter: string -> nat): (r: seq<string>)
    ensures multiset(r) == multiset(candidates)
    ensures forall i, j :: 0 <= i < j < |r| ==> Priority(s, worked, r[i]) >= Priority(s, worked, r[j])
  {
    var r := SortBy(candidates, c => -BalanceScore(s, worked, c, jitter(c)));
    assert forall i, j :: 0 <= i < j < |r| ==>
      BalanceScore(s, worked, r[i], jitter(r[i])) >= BalanceScore(s, worked, r[j], jitter(r[j]));
    r
  }

  /** Staffs shift `idx` of `allShifts`; `jitter` supplies the random
      tie-break draws of this call. Returns the updated shift list and
      worked counter. */
  function AssignShiftBalanced(s: Scheduler, idx: nat, worked: Worked, allShifts: seq<Shift>, jitter: string -> nat)
    : (r: (seq<Shift>, Worked))
    requires idx < |allShifts|
    requires s.roster.Valid()
    ensures |r.0| == |allShifts|
    ensures forall j :: 0 <= j < |allShifts| && j != idx ==> r.0[j] == allShifts[j]
    ensures r.0[idx] == allShifts[idx].(assignedUsers := r.0[idx].assignedUsers)
    ensures ExtendsKept(allShifts[idx].assignedUsers, r.0[idx].assignedUsers, allShifts[idx].requiredStaff)
    ensures NoConflictForward(s.conflicts, r.0[idx].assignedUsers)
    ensures forall u :: u in r.0[idx].assignedUsers ==> s.Eligible(u, allShifts[idx], worked, allShifts)
    ensures forall u :: Get(worked, u) <= Get(r.1, u)
    ensures forall u :: Get(r.1, u) > Get(worked, u) ==>
      Get(r.1, u) == Get(worked, u) + 1 && u in r.0[idx].assignedUsers
    ensures forall u :: Count(r.0[idx].assignedUsers, u)
                        <= Count(allShifts[idx].assignedUsers, u) + Get(r.1, u) - Get(worked, u)
    ensures forall u :: u in allShifts[idx].assignedUsers && s.Eligible(u, allShifts[idx], worked, allShifts) ==>
      u in r.0[idx].assignedUsers || s.HasConflict(r.0[idx].assignedUsers, u)
    ensures forall u :: s.Eligible(u, allShifts[idx], worked, allShifts) && u !in r.0[idx].assignedUsers ==>
      |r.0[idx].assignedUsers| >= allShifts[idx].requiredStaff || s.HasConflict(r.0[idx].assignedUsers, u)
    ensures forall u, v :: u in r.0[idx].assignedUsers && u !in allShifts[idx].assignedUsers &&
                           s.Eligible(v, allShifts[idx], worked, allShifts) && v !in r.0[idx].assignedUsers &&
                           !s.HasConflict(r.0[idx].assignedUsers, v) ==>
      Priority(s, worked, u) >= Priority(s, worked, v)
    ensures EarlierKept(s, worked, allShifts[idx], allShifts, r.0[idx].assignedUsers)
    ensures LeftOffDecided(s, worked, allShifts[idx], allShifts, r.0[idx].assignedUsers)
  {
    var shift := allShifts[idx];
    var available := s.GetAvailableUsers(shift, worked, allShifts);
    var valid := KeepValid(s, shift, allShifts, available, [], shift.assignedUsers);
    ValidatedFacts(s, shift, worked, allShifts, valid);
    var updated := allShifts[idx := shift.(assignedUsers := valid)];
    var needed := shift.requiredStaff - |valid|;
    if needed <= 0 then
      KeepOnlyOutcome(s, idx, worked, allShifts, valid);
      SubseqMembers(valid, shift.assignedUsers);
      FullListDecides(s, worked, shift, allShifts, valid);
      (updated, worked)
    else
      var candidates := Without(s.GetAvailableUsers(updated[idx], worked, updated), valid);
      var ranked := Rank(s, worked, candidates, jitter);
      RankedFacts(s, idx, worked, allShifts, valid, candidates, ranked);
      var greedy := FillGreedy(s, shift.requiredStaff, valid, ranked, worked);
      GreedyFacts(s, shift, worked, allShifts, valid, ranked, greedy);
      FillOutcome(s, idx, worked, allShifts, greedy);
      EligibleRanked(s, idx, worked, allShifts, valid, candidates, ranked);
      FillComplete(s, idx, worked, allShifts, valid, ranked, greedy.0);
      FillPrefersPriority(s, idx, worked, allShifts, valid, candidates, ranked);
      FillDecided(s, idx, worked, allShifts, valid, candidates, ranked);
      EarlierKeptExtends(s, worked, shift, allShifts, valid, greedy.0);
      (allShifts[idx := shift.(assignedUsers := greedy.0)], greedy.1)
  }

  /** No eligible member is left out of the filled list without cause: an
      eligible member is missing only from a full list or because it
      conflicts with someone on it. */
  lemma FillComplete(s: Scheduler, idx: nat, worked: Worked, allShifts: seq<Shift>, valid: seq<string>,
                     ranked: seq<string>, final: seq<string>)
    requires idx < |allShifts|
    requires s.roster.Valid()
    requires forall u :: u in allShifts[idx].assignedUsers && s.Eligible(u, allShifts[idx], worked, allShifts) ==>
      u in valid || s.HasConflict(valid, u)
    requires forall u :: s.Eligible(u, allShifts[idx], worked, allShifts) && u !in valid ==> u in ranked
    requires |valid| <= |final| && final[..|valid|] == valid
    requires |final| < allShifts[idx].requiredStaff ==> forall c :: c in ranked ==> c in final || s.HasConflict(final, c)
    ensures forall u :: u in allShifts[idx].assignedUsers && s.Eligible(u, allShifts[idx], worked, allShifts) ==>
      u in final || s.HasConflict(final, u)
    ensures forall u :: s.Eligible(u, allShifts[idx], worked, allShifts) && u !in final ==>
      |final| >= allShifts[idx].requiredStaff || s.HasConflict(final, u)
  {
    forall u | u in valid ensures u in final {
      var k :| 0 <= k < |valid| && valid[k] == u;
      assert final[k] == valid[k];
    }
    forall u | u in allShifts[idx].assignedUsers && s.Eligible(u, allShifts[idx], worked, allShifts) && u !in valid
      ensures s.HasConflict(final, u)
    {
      HasConflictExtends(s, valid, final, u);
    }
  }

  /** The places the fill adds go to the best-placed candidates: every
      newly added member has at least the priority of any eligible member
      left off who conflicts with no one on the list. */
  lemma FillPrefersPriority(s: Scheduler, idx: nat, worked: Worked, allShifts: seq<Shift>, valid: seq<string>,
                            candidates: seq<string>, ranked: seq<string>)
    requires idx < |allShifts|
    requires s.roster.Valid()
    requires IsSubseq(valid, allShifts[idx].assignedUsers)
    requires var updated := allShifts[idx := allShifts[idx].(assignedUsers := valid)];
      candidates == Without(s.GetAvailableUsers(updated[idx], worked, updated), valid)
    requires multiset(ranked) == multiset(candidates)
    requires forall i, j :: 0 <= i < j < |ranked| ==> Priority(s, worked, ranked[i]) >= Priority(s, worked, ranked[j])
    ensures var final := FillGreedy(s, allShifts[idx].requiredStaff, valid, ranked, worked).0;
      forall u, v :: u in final && u !in allShifts[idx].assignedUsers &&
                     s.Eligible(v, allShifts[idx], worked, allShifts) && v !in final &&
                     !s.HasConflict(final, v) ==>
        Priority(s, worked, u) >= Priority(s, worked, v)
  {
    var final := FillGreedy(s, allShifts[idx].requiredStaff, valid, ranked, worked).0;
    EligibleRanked(s, idx, worked, allShifts, valid, candidates, ranked);
    FillGreedyInOrder(s, allShifts[idx].requiredStaff, valid, ranked, worked);
    SubseqMembers(valid, allShifts[idx].assignedUsers);
    forall u, v | u in final && u !in allShifts[idx].assignedUsers &&
                  s.Eligible(v, allShifts[idx], worked, allShifts) && v !in final &&
                  !s.HasConflict(final, v)
      ensures Priority(s, worked, u) >= Priority(s, worked, v)
    {
      PreferredOver(s, worked, ranked, valid, final, u, v);
    }
  }

  /** One pair of the above: `u` was appended and `v`, a ranked candidate,
      was left off while conflicting with no one on the list. */
  lemma PreferredOver(s: Scheduler, worked: Worked, ranked: seq<string>, valid: seq<string>, final: seq<string>,
                      u: string, v: string)
    requires |valid| <= |final| && final[..|valid|] == valid
    requires forall a :: 0 <= a < |ranked| && ranked[a] !in final && !s.HasConflict(final, ranked[a]) ==>
      forall t :: |valid| <= t < |final| ==> final[t] in ranked[..a]
    requires forall i, j :: 0 <= i < j < |ranked| ==> Priority(s, worked, ranked[i]) >= Priority(s, worked, ranked[j])
    requires u in final && u !in valid
    requires v in ranked && v !in final && !s.HasConflict(final, v)
    ensures Priority(s, worked, u) >= Priority(s, worked, v)
  {
    var a :| 0 <= a < |ranked| && ranked[a] == v;
    RankedAhead(s, worked, ranked, valid, final, u, a);
  }

  /** A name appended after the kept prefix, when all appended names come
      from the ranking before position `a`, ranks no lower than `ranked[a]`. */
  lemma RankedAhead(s: Scheduler, worked: Worked, ranked: seq<string>, valid: seq<string>, final: seq<string>,
                    u: string, a: int)
    requires |valid| <= |final| && final[..|valid|] == valid
    requires 0 <= a < |ranked|
    requires forall t :: |valid| <= t < |final| ==> final[t] in ranked[..a]
    requires u in final && u !in valid
    requires forall i, j :: 0 <= i < j < |ranked| ==> Priority(s, worked, ranked[i]) >= Priority(s, worked, ranked[j])
    ensures Priority(s, worked, u) >= Priority(s, worked, ranked[a])
  {
    var t :| 0 <= t < |final| && final[t] == u;
    assert t >= |valid|;
    var i :| 0 <= i < a && ranked[..a][i] == u;
    assert ranked[i] == u;
  }

  /** Every eligible member not on the validated list is among the ranked
      candidates. */
  lemma EligibleRanked(s: Scheduler, idx: nat, worked: Worked, allShifts: seq<Shift>, valid: seq<string>,
                       candidates: seq<string>, ranked: seq<string>)
    requires idx < |allShifts|
    requires s.roster.Valid()
    requires var updated := allShifts[idx := allShifts[idx].(assignedUsers := valid)];
      candidates == Without(s.GetAvailableUsers(updated[idx], worked, updated), valid)
    requires multiset(ranked) == multiset(candidates)
    ensures forall u :: s.Eligible(u, allShifts[idx], worked, allShifts) && u !in valid ==> u in ranked
  {
    forall u | s.Eligible(u, allShifts[idx], worked, allShifts) && u !in valid ensures u in ranked {
      EligibleIsCandidate(s, idx, worked, allShifts, valid, candidates, u);
      assert u in multiset(candidates);
    }
  }

  /** An eligible member not on the validated list is a candidate of the
      fill. */
  lemma EligibleIsCandidate(s: Scheduler, idx: nat, worked: Worked, allShifts: seq<Shift>, valid: seq<string>,
                            candidates: seq<string>, u: string)
    requires idx < |allShifts|
    requires s.roster.Valid()
    requires var updated := allShifts[idx := allShifts[idx].(assignedUsers := valid)];
      candidates == Without(s.GetAvailableUsers(updated[idx], worked, updated), valid)
    requires s.Eligible(u, allShifts[idx], worked, allShifts) && u !in valid
    ensures u in candidates
  {
    var updated := allShifts[idx := allShifts[idx].(assignedUsers := valid)];
    CheckUserOverlapIgnoresOwnEntry(s, u, allShifts, idx, valid);
    assert u in s.GetAvailableUsers(updated[idx], worked, updated);
  }

  /** The guarantees of staffing shift `idx` of `allShifts` from counter
      `worked`, yielding the list `all2` and the counter `w2`. */
  ghost predicate Outcome(s: Scheduler, idx: nat, worked: Worked, allShifts: seq<Shift>, all2: seq<Shift>, w2: Worked)
    requires idx < |allShifts|
  {
    && |all2| == |allShifts|
    && (forall j :: 0 <= j < |allShifts| && j != idx ==> all2[j] == allShifts[j])
    && all2[idx] == allShifts[idx].(assignedUsers := all2[idx].assignedUsers)
    && ExtendsKept(allShifts[idx].assignedUsers, all2[idx].assignedUsers, allShifts[idx].requiredStaff)
    && NoConflictForward(s.conflicts, all2[idx].assignedUsers)
    && (forall u :: u in all2[idx].assignedUsers ==> s.Eligible(u, allShifts[idx], worked, allShifts))
    && (forall u :: Get(worked, u) <= Get(w2, u))
    && (forall u :: Get(w2, u) > Get(worked, u) ==> Get(w2, u) == Get(worked, u) + 1 && u in all2[idx].assignedUsers)
    && (forall u :: Count(all2[idx].assignedUsers, u) <= Count(allShifts[idx].assignedUsers, u) + Get(w2, u) - Get(worked, u))
  }

  /** A validated list that already fills the shift is the outcome, the
      counter unchanged. */
  lemma KeepOnlyOutcome(s: Scheduler, idx: nat, worked: Worked, allShifts: seq<Shift>, valid: seq<string>)
    requires idx < |allShifts|
    requires IsSubseq(valid, allShifts[idx].assignedUsers)
    requires forall u :: Count(valid, u) <= Count(allShifts[idx].assignedUsers, u)
    requires forall u :: u in valid ==> s.Eligible(u, allShifts[idx], worked, allShifts)
    requires NoConflictForward(s.conflicts, valid)
    ensures Outcome(s, idx, worked, allShifts, allShifts[idx := allShifts[idx].(assignedUsers := valid)], worked)
  {
    assert KeptPrefix(allShifts[idx].assignedUsers, valid, allShifts[idx].requiredStaff, |valid|) by {
      assert valid[..|valid|] == valid;
    }
  }

  /** The greedy fill's list, written back into shift `idx`, is the
      outcome. */
  lemma FillOutcome(s: Scheduler, idx: nat, worked: Worked, allShifts: seq<Shift>, greedy: (seq<string>, Worked))
    requires idx < |allShifts|
    requires var shift := allShifts[idx];
      && ExtendsKept(shift.assignedUsers, greedy.0, shift.requiredStaff)
      && NoConflictForward(s.conflicts, greedy.0)
      && (forall u :: u in greedy.0 ==> s.Eligible(u, shift, worked, allShifts))
      && (forall u :: Get(worked, u) <= Get(greedy.1, u))
      && (forall u :: Get(greedy.1, u) > Get(worked, u) ==> Get(greedy.1, u) == Get(worked, u) + 1 && u in greedy.0)
      && (forall u :: Count(greedy.0, u) <= Count(shift.assignedUsers, u) + Get(greedy.1, u) - Get(worked, u))
    ensures Outcome(s, idx, worked, allShifts, allShifts[idx := allShifts[idx].(assignedUsers := greedy.0)], greedy.1)
  {
  }

  /** What the validation pass guarantees of the kept list. */
  lemma ValidatedFacts(s: Scheduler, shift: Shift, worked: Worked, allShifts: seq<Shift>, valid: seq<string>)
    requires s.roster.Valid()
    requires valid == KeepValid(s, shift, allShifts, s.GetAvailableUsers(shift, worked, allShifts), [], shift.assignedUsers)
    ensures IsSubseq(valid, shift.assignedUsers)
    ensures forall u :: Count(valid, u) <= Count(shift.assignedUsers, u)
    ensures forall u :: u in valid ==> s.Eligible(u, shift, worked, allShifts)
    ensures NoConflictForward(s.conflicts, valid)
    ensures forall u :: u in shift.assignedUsers && s.Eligible(u, shift, worked, allShifts) ==>
      u in valid || s.HasConflict(valid, u)
    ensures forall a :: 0 <= a < |shift.assignedUsers| && s.Eligible(shift.assignedUsers[a], shift, worked, allShifts) &&
                        shift.assignedUsers[a] !in valid ==>
      BlockedByEarlier(s, shift.assignedUsers, valid, a)
  {
    ValidatedBlockedEarlier(s, shift, worked, allShifts, valid);
    assert valid[0..] == valid;
    forall u ensures Count(valid, u) <= Count(shift.assignedUsers, u) {
      SubseqCount(valid, shift.assignedUsers, u);
    }
  }

  /** Of two conflicting eligible assignees, validation keeps the earlier. */
  lemma ValidatedBlockedEarlier(s: Scheduler, shift: Shift, worked: Worked, allShifts: seq<Shift>, valid: seq<string>)
    requires s.roster.Valid()
    requires valid == KeepValid(s, shift, allShifts, s.GetAvailableUsers(shift, worked, allShifts), [], shift.assignedUsers)
    ensures forall a :: 0 <= a < |shift.assignedUsers| && s.Eligible(shift.assignedUsers[a], shift, worked, allShifts) &&
                        shift.assignedUsers[a] !in valid ==>
      BlockedByEarlier(s, shift.assignedUsers, valid, a)
  {
    var orig := shift.assignedUsers;
    var available := s.GetAvailableUsers(shift, worked, allShifts);
    KeepValidDecidedEarly(s, shift, allShifts, available, [], orig);
    forall a | 0 <= a < |orig| && s.Eligible(orig[a], shift, worked, allShifts) && orig[a] !in valid
      ensures BlockedByEarlier(s, orig, valid, a)
    {
      assert Passes(s, shift, allShifts, available, orig[a]);
      var p :| 0 <= p <= |valid| && IsSubseq(valid[0..p], orig[..a]) && s.HasConflict(valid[..p], orig[a]);
      assert valid[0..p] == valid[..p];
    }
  }

  /** Keeping the earlier of two conflicting assignees survives appending
      newcomers to the list. */
  lemma EarlierKeptExtends(s: Scheduler, worked: Worked, shift: Shift, allShifts: seq<Shift>,
                           valid: seq<string>, list: seq<string>)
    requires |valid| <= |list| && list[..|valid|] == valid
    requires EarlierKept(s, worked, shift, allShifts, valid)
    ensures EarlierKept(s, worked, shift, allShifts, list)
  {
    var orig := shift.assignedUsers;
    forall a | 0 <= a < |orig| && s.Eligible(orig[a], shift, worked, allShifts) && orig[a] !in list
      ensures BlockedByEarlier(s, orig, list, a)
    {
      assert orig[a] !in valid by {
        forall k | 0 <= k < |valid| ensures valid[k] != orig[a] {
          assert list[k] == valid[k];
        }
      }
      var p :| 0 <= p <= |valid| && IsSubseq(valid[..p], orig[..a]) && s.HasConflict(valid[..p], orig[a]);
      assert list[..p] == valid[..p];
    }
  }

  /** A list already at the required staff turns everyone else away. */
  lemma FullListDecides(s: Scheduler, worked: Worked, shift: Shift, allShifts: seq<Shift>, valid: seq<string>)
    requires |valid| >= shift.requiredStaff
    requires forall u :: u in valid ==> u in shift.assignedUsers
    ensures LeftOffDecided(s, worked, shift, allShifts, valid)
  {
    var orig := shift.assignedUsers;
    forall v ensures DecidedBefore(s, worked, orig, valid, shift.requiredStaff, v) {
      assert forall t :: 0 <= t < |valid| ==> valid[t] in orig;
      assert NewcomersAtLeast(s, worked, orig, valid, |valid|, v);
      assert valid[..|valid|] == valid;
    }
  }

  /** Every eligible member the fill leaves off was turned away when the
      only newcomers on the list had at least its priority. */
  lemma FillDecided(s: Scheduler, idx: nat, worked: Worked, allShifts: seq<Shift>, valid: seq<string>,
                    candidates: seq<string>, ranked: seq<string>)
    requires idx < |allShifts|
    requires s.roster.Valid()
    requires IsSubseq(valid, allShifts[idx].assignedUsers)
    requires var updated := allShifts[idx := allShifts[idx].(assignedUsers := valid)];
      candidates == Without(s.GetAvailableUsers(updated[idx], worked, updated), valid)
    requires multiset(ranked) == multiset(candidates)
    requires forall i, j :: 0 <= i < j < |ranked| ==> Priority(s, worked, ranked[i]) >= Priority(s, worked, ranked[j])
    ensures LeftOffDecided(s, worked, allShifts[idx], allShifts,
                           FillGreedy(s, allShifts[idx].requiredStaff, valid, ranked, worked).0)
  {
    var required := allShifts[idx].requiredStaff;
    var final := FillGreedy(s, required, valid, ranked, worked).0;
    EligibleRanked(s, idx, worked, allShifts, valid, candidates, ranked);
    FillGreedyDecidedEarly(s, required, valid, ranked, worked);
    SubseqMembers(valid, allShifts[idx].assignedUsers);
    forall v | s.Eligible(v, allShifts[idx], worked, allShifts) && v !in final
      ensures DecidedBefore(s, worked, allShifts[idx].assignedUsers, final, required, v)
    {
      var a :| 0 <= a < |ranked| && ranked[a] == v;
      TurnedAwayDecided(s, worked, allShifts[idx].assignedUsers, valid, final, ranked, required, a);
    }
  }

  /** A candidate turned away after the kept prefix, by a list whose
      newcomers were all ranked before it, was decided against members of
      at least its priority. */
  lemma TurnedAwayDecided(s: Scheduler, worked: Worked, orig: seq<string>, valid: seq<string>, final: seq<string>,
                          ranked: seq<string>, required: int, a: int)
    requires |valid| <= |final| && final[..|valid|] == valid
    requires forall u :: u in valid ==> u in orig
    requires forall i, j :: 0 <= i < j < |ranked| ==> Priority(s, worked, ranked[i]) >= Priority(s, worked, ranked[j])
    requires 0 <= a < |ranked|
    requires TurnedAway(s, required, |valid|, final, ranked, a)
    ensures DecidedBefore(s, worked, orig, final, required, ranked[a])
  {
    var p :| |valid| <= p <= |final| && RankedBefore(final, |valid|, p, ranked, a) &&
             (p >= required || s.HasConflict(final[..p], ranked[a]));
    forall t | 0 <= t < p && t < |final| && final[t] !in orig
      ensures Priority(s, worked, final[t]) >= Priority(s, worked, ranked[a])
    {
      if t >= |valid| {
        var i :| 0 <= i < a && ranked[..a][i] == final[t];
        assert ranked[i] == final[t];
      }
    }
    assert NewcomersAtLeast(s, worked, orig, final, p, ranked[a]);
  }

  /** The ranked candidates are distinct, not yet assigned, and eligible for
      the shift as it stood before validation. */
  lemma RankedFacts(s: Scheduler, idx: nat, worked: Worked, allShifts: seq<Shift>, valid: seq<string>,
                    candidates: seq<string>, ranked: seq<string>)
    requires idx < |allShifts|
    requires s.roster.Valid()
    requires var updated := allShifts[idx := allShifts[idx].(assignedUsers := valid)];
      candidates == Without(s.GetAvailableUsers(updated[idx], worked, updated), valid)
    requires multiset(ranked) == multiset(candidates)
    ensures Distinct(ranked)
    ensures forall c :: c in ranked ==> c !in valid && s.Eligible(c, allShifts[idx], worked, allShifts)
  {
    var updated := allShifts[idx := allShifts[idx].(assignedUsers := valid)];
    SubseqDistinct(candidates, s.GetAvailableUsers(updated[idx], worked, updated));
    assert forall c :: c in ranked <==> c in candidates by {
      assert forall c :: c in ranked <==> c in multiset(ranked);
      assert forall c :: c in candidates <==> c in multiset(candidates);
    }
    forall c | c in candidates ensures s.Eligible(c, allShifts[idx], worked, allShifts) {
      CheckUserOverlapIgnoresOwnEntry(s, c, allShifts, idx, valid);
    }
    forall i, j | 0 <= i < j < |ranked| ensures ranked[i] != ranked[j] {
      if ranked[i] == ranked[j] {
        MultisetTwice(ranked, i, j);
        DistinctMultiplicity(candidates, ranked[i]);
        assert false;
      }
    }
  }

  /** What the greedy fill adds to the validated list. */
  lemma GreedyFacts(s: Scheduler, shift: Shift, worked: Worked, allShifts: seq<Shift>, valid: seq<string>,
                    ranked: seq<string>, greedy: (seq<string>, Worked))
    requires Distinct(ranked)
    requires forall c :: c in ranked ==> c !in valid && s.Eligible(c, shift, worked, allShifts)
    requires IsSubseq(valid, shift.assignedUsers)
    requires forall u :: Count(valid, u) <= Count(shift.assignedUsers, u)
    requires forall u :: u in valid ==> s.Eligible(u, shift, worked, allShifts)
    requires NoConflictForward(s.conflicts, valid)
    requires greedy == FillGreedy(s, shift.requiredStaff, valid, ranked, worked)
    ensures ExtendsKept(shift.assignedUsers, greedy.0, shift.requiredStaff)
    ensures NoConflictForward(s.conflicts, greedy.0)
    ensures forall u :: u in greedy.0 ==> s.Eligible(u, shift, worked, allShifts)
    ensures forall u :: Get(worked, u) <= Get(greedy.1, u)
    ensures forall u :: Get(greedy.1, u) > Get(worked, u) ==>
      Get(greedy.1, u) == Get(worked, u) + 1 && u in greedy.0
    ensures forall u :: Count(greedy.0, u) <= Count(shift.assignedUsers, u) + Get(greedy.1, u) - Get(worked, u)
  {
    FillGreedyNoConflict(s, shift.requiredStaff, valid, ranked, worked);
    FillGreedyFresh(s, shift.requiredStaff, valid, ranked, worked);
    FillGreedyWorked(s, shift.requiredStaff, valid, ranked, worked);
    FillGreedyOccurrences(s, shift.requiredStaff, valid, ranked, worked);
    GreedyListFacts(s, shift, worked, allShifts, valid, ranked, greedy.0);
    GreedyCounterFacts(worked, valid, greedy.0, greedy.1);
  }

  /** The filled list: kept names first, then fresh conflict-free eligible
      candidates. */
  lemma GreedyListFacts(s: Scheduler, shift: Shift, worked: Worked, allShifts: seq<Shift>, valid: seq<string>,
                        ranked: seq<string>, final: seq<string>)
    requires forall c :: c in ranked ==> s.Eligible(c, shift, worked, allShifts)
    requires IsSubseq(valid, shift.assignedUsers)
    requires forall u :: u in valid ==> s.Eligible(u, shift, worked, allShifts)
    requires NoConflictForward(s.conflicts, valid)
    requires |valid| <= |final| && final[..|valid|] == valid
    requires forall t :: |valid| <= t < |final| ==> final[t] in ranked
    requires |final| > |valid| ==> |final| <= shift.requiredStaff
    requires NoConflictFrom(s.conflicts, final, |valid|)
    requires FreshFrom(final, |valid|)
    ensures ExtendsKept(shift.assignedUsers, final, shift.requiredStaff)
    ensures NoConflictForward(s.conflicts, final)
    ensures forall u :: u in final ==> s.Eligible(u, shift, worked, allShifts)
  {
    forall a, b | 0 <= a < b < |final| ensures (final[a], final[b]) !in s.conflicts {
      if b < |valid| {
        assert final[a] == valid[a] && final[b] == valid[b];
      }
    }
    forall u | u in final ensures s.Eligible(u, shift, worked, allShifts) {
      var t :| 0 <= t < |final| && final[t] == u;
      if t < |valid| {
        assert valid[t] == u;
      }
    }
    assert KeptPrefix(shift.assignedUsers, final, shift.requiredStaff, |valid|);
  }

  /** The counter after the fill: one more exactly for each appended name. */
  lemma GreedyCounterFacts(worked: Worked, valid: seq<string>, final: seq<string>, w2: Worked)
    requires |valid| <= |final|
    requires forall u :: Get(w2, u) == Get(worked, u) + (if u in final[|valid|..] then 1 else 0)
    ensures forall u :: Get(worked, u) <= Get(w2, u)
    ensures forall u :: Get(w2, u) > Get(worked, u) ==> Get(w2, u) == Get(worked, u) + 1 && u in final
  {
    forall u | Get(w2, u) > Get(worked, u) ensures u in final {
      var t :| 0 <= t < |final[|valid|..]| && final[|valid|..][t] == u;
      assert final[|valid| + t] == u;
    }
  }
}

=== FILE: engine.dfy ===
/** The scheduler's state and its basic queries: the roster, the symmetric
    conflict relation, the worked-shift counter, the no-double-booking scan and
    the eligibility filter. */
module Engine {
  import opened Seqs
  import opened Shifts
  import opened Users

  /** The roster as the application's name-keyed dictionary: `users` holds the
      records, `names` its keys in insertion order (the iteration order). */
  datatype Roster = Roster(names: seq<string>, users: map<string, User>)
  {
    ghost predicate Valid()
    {
      Distinct(names) && (forall n :: n in users <==> n in names)
    }

    function Cap(name: string): int
      requires name in users
    {
      users[name].maxShiftsPerWeek
    }
  }

  datatype Scheduler = Scheduler(roster: Roster, conflicts: set<(string, string)>)
  {
    /** The roster is a dictionary and the conflict relation is symmetric. */
    ghost predicate Valid()
    {
      roster.Valid() && Symmetric(conflicts)
    }

    /** The candidate conflicts with someone already in `current`
        (the lookup uses the (current, candidate) orientation only). */
    function HasConflict(current: seq<string>, candidate: string): (r: bool)
      ensures r <==> exists i :: 0 <= i < |current| && (current[i], candidate) in conflicts
    {
      if |current| == 0 then false
      else if (current[0], candidate) in conflicts then true
      else
        var rest := HasConflict(current[1..], candidate);
        assert forall i :: 1 <= i < |current| ==> current[i] == current[1..][i - 1];
        rest
    }

    /** The member is assigned to another shift (by id) that overlaps `shift`. */
    function CheckUserOverlap(userName: string, shift: Shift, allShifts: seq<Shift>): (r: bool)
      ensures r <==> exists j :: 0 <= j < |allShifts| && allShifts[j].id != shift.id &&
                       userName in allShifts[j].assignedUsers && shift.OverlapsWith(allShifts[j])
    {
      if |allShifts| == 0 then false
      else
        var other := allShifts[0];
        if other.id != shift.id && userName in other.assignedUsers && shift.OverlapsWith(other) then true
        else
          var rest := CheckUserOverlap(userName, shift, allShifts[1..]);
          assert forall j :: 1 <= j < |allShifts| ==> allShifts[j] == allShifts[1..][j - 1];
          rest
    }

    /** The eligibility test of the candidate filter: in the roster, below the
        weekly cap, available for the shift's day and time, and not booked on an
        overlapping shift. */
    predicate Eligible(name: string, shift: Shift, worked: Worked, allShifts: seq<Shift>)
    {
      && name in roster.users
      && Get(worked, name) < roster.Cap(name)
      && roster.users[name].IsAvailable(shift.day, shift.startHour, shift.startMinute, shift.endHour, shift.endMinute)
      && !CheckUserOverlap(name, shift, allShifts)
    }

    /** The members eligible for `shift`, in roster order. */
    function GetAvailableUsers(shift: Shift, worked: Worked, allShifts: seq<Shift>): (r: seq<string>)
      requires roster.Valid()
      ensures forall c :: c in r <==>
        && c in roster.users
        && Get(worked, c) < roster.users[c].maxShiftsPerWeek
        && roster.users[c].IsAvailable(shift.day, shift.startHour, shift.startMinute, shift.endHour, shift.endMinute)
        && !CheckUserOverlap(c, shift, allShifts)
      ensures IsSubseq(r, roster.names)
      ensures Distinct(r)
    {
      var r := FilterEligible(roster.names, shift, worked, allShifts);
      SubseqDistinct(r, roster.names);
      r
    }

    function FilterEligible(names: seq<string>, shift: Shift, worked: Worked, allShifts: seq<Shift>): (r: seq<string>)
      ensures forall c :: c in r <==> c in names && Eligible(c, shift, worked, allShifts)
      ensures IsSubseq(r, names)
    {
      if |names| == 0 then []
      else
        var rest := FilterEligible(names[1..], shift, worked, allShifts);
        assert forall c :: c in names <==> c == names[0] || c in names[1..];
        if Eligible(names[0], shift, worked, allShifts) then
          SubseqAppendLeft(rest, names[1..], names[0]);
          assert [names[0]] + names[1..] == names;
          [names[0]] + rest
        else
          SubseqSkipLeft(rest, names[1..], names[0]);
          assert [names[0]] + names[1..] == names;
          rest
    }
  }

  ghost predicate Symmetric(conflicts: set<(string, string)>)
  {
    forall a, b :: (a, b) in conflicts ==> (b, a) in conflicts
  }

  /** Builds the scheduler: every given conflict pair is stored in both orientations. */
  function NewScheduler(roster: Roster, pairs: seq<(string, string)>): (s: Scheduler)
    ensures s.roster == roster
    ensures Symmetric(s.conflicts)
    ensures forall a, b :: (a, b) in s.conflicts <==> (a, b) in pairs || (b, a) in pairs
  {
    Scheduler(roster, AddBothOrientations({}, pairs))
  }

  function AddBothOrientations(acc: set<(string, string)>, pairs: seq<(string, string)>): (r: set<(string, string)>)
    ensures forall a, b :: (a, b) in r <==> (a, b) in acc || (a, b) in pairs || (b, a) in pairs
    decreases |pairs|
  {
    if |pairs| == 0 then acc
    else
      var p := pairs[0];
      assert forall q :: q in pairs <==> q == p || q in pairs[1..];
      AddBothOrientations(acc + {(p.0, p.1), (p.1, p.0)}, pairs[1..])
  }

  /** The per-run counter of shifts worked, keyed by member name. */
  type Worked = map<string, int>

  /** `shifts_worked.get(name, 0)`. */
  function Get(worked: Worked, name: string): int
  {
    if name in worked then worked[name] else 0
  }

  /** A list of names in which no earlier name conflicts with a later one,
      in the orientation the scheduler checks. */
  predicate NoConflictForward(conflicts: set<(string, string)>, names: seq<string>)
  {
    forall a, b :: 0 <= a < b < |names| ==> (names[a], names[b]) !in conflicts
  }

  /** No two distinct positions of `names` hold a conflicting pair. */
  predicate ConflictFree(conflicts: set<(string, string)>, names: seq<string>)
  {
    forall a, b :: 0 <= a < |names| && 0 <= b < |names| && a != b ==> (names[a], names[b]) !in conflicts
  }

  /** With a symmetric relation, the one-directional check the scheduler makes
      is enough to exclude every conflicting pair. */
  lemma ForwardCheckSuffices(conflicts: set<(string, string)>, names: seq<string>)
    requires Symmetric(conflicts)
    requires NoConflictForward(conflicts, names)
    ensures ConflictFree(conflicts, names)
  {
    forall a, b | 0 <= a < |names| && 0 <= b < |names| && a != b
      ensures (names[a], names[b]) !in conflicts
    {
      if b < a {
        assert (names[b], names[a]) !in conflicts;
      }
    }
  }

  /** The conflict lookup gives the same answer whichever member is asked
      about, because both orientations are stored. */
  lemma HasConflictSymmetric(s: Scheduler, a: string, b: string)
    requires Symmetric(s.conflicts)
    ensures s.HasConflict([a], b) <==> s.HasConflict([b], a)
  {
    assert s.HasConflict([a], b) <==> (a, b) in s.conflicts;
    assert s.HasConflict([b], a) <==> (b, a) in s.conflicts;
  }
}

=== FILE: grouping.dfy ===
/** `_group_overlapping_shifts`: the calendar's sweep that groups shifts whose
    times of day chain into one another, so that each group can be drawn side
    by side. Days are not looked at; the calendar calls it per day. */
module Grouping {
  import opened Seqs
  import opened Sorting
  import opened Shifts

  /** Start and end of a shift in minutes after midnight, the sort key and
      the compared end of the sweep. */
  function StartOf(sh: Shift): int
  {
    sh.ToTimeRange().StartMinutes()
  }

  function EndOf(sh: Shift): int
  {
    sh.ToTimeRange().EndMinutes()
  }

  /** The latest end among the shifts of a non-empty group. */
  function MaxEnd(g: seq<Shift>): (m: int)
    requires |g| > 0
    ensures forall a :: a in g ==> EndOf(a) <= m
    ensures exists a :: a in g && EndOf(a) == m
  {
    if |g| == 1 then EndOf(g[0])
    else
      var front := g[..|g| - 1];
      var m := MaxEnd(front);
      assert forall a :: a in g ==> a in front || a == g[|g| - 1];
      assert forall a :: a in front ==> a in g;
      assert g[|g| - 1] in g;
      if EndOf(g[|g| - 1]) > m then EndOf(g[|g| - 1]) else m
  }

  /** Appending a shift to the open group: the earlier prefixes are kept and
      the latest end becomes the larger of the two. */
  lemma AppendToGroup(current: seq<Shift>, sh: Shift)
    requires |current| > 0
    ensures var next := current + [sh];
      && next[..|current|] == current
      && (forall t :: 0 <= t < |current| ==> next[..t] == current[..t] && next[t] == current[t])
      && MaxEnd(next) == if MaxEnd(current) >= EndOf(sh) then MaxEnd(current) else EndOf(sh)
  {
    var next := current + [sh];
    assert next[..|next| - 1] == current;
  }

  /** Each shift of the group after the first starts before some earlier
      shift of the group has ended. */
  ghost predicate Chained(g: seq<Shift>)
  {
    forall t :: 1 <= t < |g| ==> StartOf(g[t]) < MaxEnd(g[..t])
  }

  /** Every shift of an earlier group ends no later than every shift of a
      later group starts. */
  ghost predicate Separated(groups: seq<seq<Shift>>)
  {
    forall i, j, a, b :: 0 <= i < j < |groups| && a in groups[i] && b in groups[j] ==> EndOf(a) <= StartOf(b)
  }

  /** The sweep over the rest of the sorted shifts; `current` is the open
      group and `groupEnd` the end it is compared with. A shift starting
      before `groupEnd` joins the open group, any other closes it and opens
      the next. */
  function Sweep(rest: seq<Shift>, current: seq<Shift>, groupEnd: int): (groups: seq<seq<Shift>>)
    requires |current| > 0
    ensures Flatten(groups) == current + rest
    ensures forall g :: g in groups ==> |g| > 0
    decreases |rest|
  {
    if |rest| == 0 then
      assert Flatten([current]) == current + [];
      [current]
    else
      var sh := rest[0];
      var shEnd := EndOf(sh);
      if StartOf(sh) < groupEnd then
        var groups := Sweep(rest[1..], current + [sh], if groupEnd >= shEnd then groupEnd else shEnd);
        assert current + [sh] + rest[1..] == current + rest;
        groups
      else
        var tail := Sweep(rest[1..], [sh], shEnd);
        assert [sh] + rest[1..] == rest;
        [current] + tail
  }

  /** With `groupEnd` the latest end of the open group, every group the
      sweep produces is chained. */
  lemma {:induction false} SweepChained(rest: seq<Shift>, current: seq<Shift>, groupEnd: int)
    requires |current| > 0
    requires groupEnd == MaxEnd(current)
    requires Chained(current)
    ensures forall g :: g in Sweep(rest, current, groupEnd) ==> Chained(g)
    decreases |rest|
  {
    if |rest| > 0 {
      var sh := rest[0];
      var shEnd := EndOf(sh);
      if StartOf(sh) < groupEnd {
        var next := current + [sh];
        var nextEnd := if groupEnd >= shEnd then groupEnd else shEnd;
        ChainedAppend(current, sh);
        SweepChained(rest[1..], next, nextEnd);
        SweepJoins(rest, current, groupEnd);
      } else {
        var tail := Sweep(rest[1..], [sh], shEnd);
        SweepChained(rest[1..], [sh], shEnd);
        assert Sweep(rest, current, groupEnd) == [current] + tail;
        ChainedCons(current, tail);
      }
    }
  }

  lemma ChainedCons(current: seq<Shift>, tail: seq<seq<Shift>>)
    requires Chained(current)
    requires forall g :: g in tail ==> Chained(g)
    ensures forall g :: g in [current] + tail ==> Chained(g)
  {
  }

  /** A shift starting before the open group's latest end extends a chained
      group to a chained group. */
  lemma ChainedAppend(current: seq<Shift>, sh: Shift)
    requires |current| > 0
    requires Chained(current)
    requires StartOf(sh) < MaxEnd(current)
    ensures Chained(current + [sh])
    ensures MaxEnd(current + [sh]) == if MaxEnd(current) >= EndOf(sh) then MaxEnd(current) else EndOf(sh)
  {
    var next := current + [sh];
    AppendToGroup(current, sh);
    forall t | 1 <= t < |next| ensures StartOf(next[t]) < MaxEnd(next[..t]) {
      if t < |current| {
        assert next[..t] == current[..t] && next[t] == current[t];
      } else {
        assert next[..t] == current;
      }
    }
  }

  /** Over sorted shifts, with `groupEnd` the latest end of the open group,
      the groups the sweep produces are separated. */
  lemma {:induction false} SweepSeparated(rest: seq<Shift>, current: seq<Shift>, groupEnd: int)
    requires |current| > 0
    requires groupEnd == MaxEnd(current)
    requires SortedBy(rest, StartOf)
    ensures Separated(Sweep(rest, current, groupEnd))
    decreases |rest|
  {
    if |rest| > 0 {
      var sh := rest[0];
      var shEnd := EndOf(sh);
      SortedTail(rest);
      if StartOf(sh) < groupEnd {
        var next := current + [sh];
        var nextEnd := if groupEnd >= shEnd then groupEnd else shEnd;
        AppendToGroup(current, sh);
        SweepSeparated(rest[1..], next, nextEnd);
        SweepJoins(rest, current, groupEnd);
      } else {
        SweepSeparated(rest[1..], [sh], shEnd);
        SweepCloses(rest, current, groupEnd);
      }
    }
  }

  /** A shift starting before the open group's end joins it. */
  lemma SweepJoins(rest: seq<Shift>, current: seq<Shift>, groupEnd: int)
    requires |current| > 0 && |rest| > 0
    requires StartOf(rest[0]) < groupEnd
    ensures Sweep(rest, current, groupEnd)
         == Sweep(rest[1..], current + [rest[0]], if groupEnd >= EndOf(rest[0]) then groupEnd else EndOf(rest[0]))
  {
  }

  /** A shift starting at or after the open group's end closes it; the
      closed group is separated from the groups that follow. */
  lemma SweepCloses(rest: seq<Shift>, current: seq<Shift>, groupEnd: int)
    requires |current| > 0 && |rest| > 0
    requires groupEnd == MaxEnd(current)
    requires SortedBy(rest, StartOf)
    requires StartOf(rest[0]) >= groupEnd
    requires Separated(Sweep(rest[1..], [rest[0]], EndOf(rest[0])))
    ensures Separated(Sweep(rest, current, groupEnd))
  {
    var tail := Sweep(rest[1..], [rest[0]], EndOf(rest[0]));
    assert Sweep(rest, current, groupEnd) == [current] + tail;
    assert [rest[0]] + rest[1..] == rest;
    SeparatedCons(current, tail, rest);
  }

  lemma SortedTail(rest: seq<Shift>)
    requires |rest| > 0 && SortedBy(rest, StartOf)
    ensures SortedBy(rest[1..], StartOf)
  {
    assert forall i :: 0 <= i < |rest| - 1 ==> rest[1..][i] == rest[i + 1];
  }

  /** A closed group followed by separated groups of sorted shifts that all
      start at or after the closed group's ends is separated. */
  lemma SeparatedCons(current: seq<Shift>, tail: seq<seq<Shift>>, rest: seq<Shift>)
    requires |rest| > 0
    requires Separated(tail)
    requires Flatten(tail) == rest
    requires SortedBy(rest, StartOf)
    requires forall a :: a in current ==> EndOf(a) <= StartOf(rest[0])
    ensures Separated([current] + tail)
  {
    var groups := [current] + tail;
    forall i, j, a, b | 0 <= i < j < |groups| && a in groups[i] && b in groups[j]
      ensures EndOf(a) <= StartOf(b)
    {
      if i == 0 {
        FlattenMember(tail, j - 1, b);
        var t :| 0 <= t < |rest| && rest[t] == b;
        assert StartOf(rest[0]) <= StartOf(rest[t]);
      } else {
        assert a in tail[i - 1] && b in tail[j - 1];
      }
    }
  }

  /** A member of one group is a member of the concatenation. */
  lemma {:induction false} FlattenMember(groups: seq<seq<Shift>>, j: int, b: Shift)
    requires 0 <= j < |groups| && b in groups[j]
    ensures b in Flatten(groups)
    decreases |groups|
  {
    if j > 0 {
      FlattenMember(groups[1..], j - 1, b);
    }
  }

  /** Groups the shifts: sorted by start (stably), then swept. */
  function GroupOverlappingShifts(shifts: seq<Shift>): (groups: seq<seq<Shift>>)
    ensures |groups| == 0 <==> |shifts| == 0
    ensures Flatten(groups) == SortBy(shifts, StartOf)
    ensures forall g :: g in groups ==> |g| > 0 && Chained(g)
    ensures Separated(groups)
  {
    if |shifts| == 0 then []
    else
      var sorted := SortBy(shifts, StartOf);
      assert [sorted[0]] + sorted[1..] == sorted;
      SweepChained(sorted[1..], [sorted[0]], EndOf(sorted[0]));
      SweepSeparated(sorted[1..], [sorted[0]], EndOf(sorted[0]));
      Sweep(sorted[1..], [sorted[0]], EndOf(sorted[0]))
  }

  /** The groups hold exactly the input shifts, in start order, and shifts
      with the same start keep their input order. */
  lemma GroupsPartitionInput(shifts: seq<Shift>, k: int)
    ensures var flat := Flatten(GroupOverlappingShifts(shifts));
      && multiset(flat) == multiset(shifts)
      && SortedBy(flat, StartOf)
      && WithKey(flat, StartOf, k) == WithKey(shifts, StartOf, k)
  {
    SortByStable(shifts, StartOf, k);
  }
}

=== FILE: roster_edits.dfy ===
/** The edits of the application's data that the user-management and
    conflict dialogs make: deleting a member, renaming a member and adding a
    conflict pair. The application keeps conflicts as a list of pairs, as
    entered; the scheduler adds the reverse orientation when it is built. */
module RosterEdits {
  import opened Wrappers
  import opened Seqs
  import opened Shifts
  import opened Users
  import opened Engine

  datatype AppData = AppData(roster: Roster, conflicts: seq<(string, string)>, shifts: seq<Shift>)

  datatype EditError = NameTaken | MissingUser | SelfConflict | DuplicatePair

  /** Position of the first occurrence of `x`. */
  function FirstIndex(s: seq<string>, x: string): (i: nat)
    requires x in s
    ensures i < |s| && s[i] == x && x !in s[..i]
  {
    if s[0] == x then 0
    else
      assert x in s[1..];
      var i := FirstIndex(s[1..], x);
      assert s[..i + 1] == [s[0]] + s[1..][..i];
      i + 1
  }

  /** `list.remove(x)` guarded by `x in list`: when `x` is present the list
      with the position of its first occurrence cut out, otherwise the list
      itself. */
  function RemoveFirst(s: seq<string>, x: string): (r: seq<string>)
    ensures x !in s ==> r == s
    ensures x in s ==> r == s[..FirstIndex(s, x)] + s[FirstIndex(s, x) + 1..]
  {
    if |s| == 0 then s
    else if s[0] == x then
      s[1..]
    else
      var rest := RemoveFirst(s[1..], x);
      if x in s then
        assert x in s[1..];
        ConsCut(s, FirstIndex(s[1..], x));
        [s[0]] + rest
      else
        [s[0]] + rest
  }

  /** Cutting position `i` out of the tail, then putting the head back, cuts
      position `i + 1` out of the whole list. */
  lemma ConsCut(s: seq<string>, i: nat)
    requires i + 1 < |s|
    ensures [s[0]] + (s[1..][..i] + s[1..][i + 1..]) == s[..i + 1] + s[i + 2..]
  {
    assert s[..i + 1] == [s[0]] + s[1..][..i];
    assert s[i + 2..] == s[1..][i + 1..];
  }

  /** Removing the first occurrence lowers the count of `x` by one when `x`
      is present and leaves every other count alone. */
  lemma RemoveFirstCount(s: seq<string>, x: string, y: string)
    ensures Count(RemoveFirst(s, x), y) == Count(s, y) - (if y == x && x in s then 1 else 0)
  {
    if x in s {
      var i := FirstIndex(s, x);
      assert s == s[..i] + [x] + s[i + 1..];
      CountAppend(s[..i] + [x], s[i + 1..], y);
      CountAppend(s[..i], [x], y);
      CountAppend(s[..i], s[i + 1..], y);
    }
  }

  /** `after` is `before` with its first `name` cut out, or `before` itself
      when `name` does not occur. */
  ghost predicate FirstCutOut(before: seq<string>, after: seq<string>, name: string)
  {
    if name in before then after == before[..FirstIndex(before, name)] + before[FirstIndex(before, name) + 1..]
    else after == before
  }

  /** `after` keeps every entry of `before` other than `name`, in their
      order, and no `name`. */
  ghost predicate KeepsOthersInOrder(before: seq<string>, after: seq<string>, name: string)
  {
    && IsSubseq(after, before)
    && forall n :: Count(after, n) == if n == name then 0 else Count(before, n)
  }

  /** The roster names other than `x`, in order. */
  function WithoutName(names: seq<string>, x: string): (r: seq<string>)
    ensures forall n :: n in r <==> n in names && n != x
    ensures KeepsOthersInOrder(names, r, x)
    ensures Distinct(names) ==> Distinct(r)
  {
    if |names| == 0 then []
    else
      var rest := WithoutName(names[1..], x);
      assert forall n :: n in names <==> n == names[0] || n in names[1..];
      assert [names[0]] + names[1..] == names;
      assert ([names[0]] + rest)[1..] == rest;
      assert Distinct(names) ==> Distinct(names[1..]) && names[0] !in names[1..] by {
        if Distinct(names) {
          forall i, j | 0 <= i < j < |names[1..]| ensures names[1..][i] != names[1..][j] {
            assert names[1..][i] == names[i + 1] && names[1..][j] == names[j + 1];
          }
        }
      }
      if names[0] == x then
        SubseqSkipLeft(rest, names[1..], names[0]);
        rest
      else
        SubseqAppendLeft(rest, names[1..], names[0]);
        [names[0]] + rest
  }

  /** `del users[name]`: the member leaves the dictionary and its order; the
      other names keep their order. */
  function RemoveMember(roster: Roster, name: string): (r: Roster)
    ensures roster.Valid() ==> r.Valid()
    ensures KeepsOthersInOrder(roster.names, r.names, name)
    ensures name !in r.users
    ensures forall n :: n != name ==> (n in r.users <==> n in roster.users)
    ensures forall n :: n in r.users ==> r.users[n] == roster.users[n]
  {
    Roster(WithoutName(roster.names, name), roster.users - {name})
  }

  /** The conflict pairs that do not mention `name`, in order. */
  function DropPairsWith(conflicts: seq<(string, string)>, name: string): (r: seq<(string, string)>)
    ensures forall p :: p in r <==> p in conflicts && p.0 != name && p.1 != name
    ensures IsSubseq(r, conflicts)
    ensures forall p :: Count(r, p) == if p.0 != name && p.1 != name then Count(conflicts, p) else 0
  {
    if |conflicts| == 0 then []
    else
      var rest := DropPairsWith(conflicts[1..], name);
      var p := conflicts[0];
      assert forall q :: q in conflicts <==> q == p || q in conflicts[1..];
      assert [p] + conflicts[1..] == conflicts;
      assert ([p] + rest)[1..] == rest;
      if p.0 != name && p.1 != name then
        SubseqAppendLeft(rest, conflicts[1..], p);
        [p] + rest
      else
        SubseqSkipLeft(rest, conflicts[1..], p);
        rest
  }

  /** Each shift's list with the first occurrence of `name` removed. */
  function UnassignEverywhere(shifts: seq<Shift>, name: string): (r: seq<Shift>)
    ensures |r| == |shifts|
    ensures forall i :: 0 <= i < |r| ==>
      r[i] == shifts[i].(assignedUsers := RemoveFirst(shifts[i].assignedUsers, name))
  {
    seq(|shifts|, i requires 0 <= i < |shifts| => shifts[i].(assignedUsers := RemoveFirst(shifts[i].assignedUsers, name)))
  }

  /** Deleting a member: the member leaves the roster, every conflict pair
      mentioning it is dropped, and it is removed once from every shift
      that lists it (a list holding it twice keeps one entry). */
  function DeleteUser(d: AppData, name: string): (r: AppData)
    requires name in d.roster.users
    ensures d.roster.Valid() ==> r.roster.Valid()
    ensures name !in r.roster.users
    ensures forall n :: n != name ==> (n in r.roster.users <==> n in d.roster.users)
    ensures KeepsOthersInOrder(d.roster.names, r.roster.names, name)
    ensures forall p :: p in r.conflicts <==> p in d.conflicts && p.0 != name && p.1 != name
    ensures IsSubseq(r.conflicts, d.conflicts)
    ensures forall p :: Count(r.conflicts, p) == if p.0 != name && p.1 != name then Count(d.conflicts, p) else 0
    ensures |r.shifts| == |d.shifts|
    ensures forall i :: 0 <= i < |r.shifts| ==>
      && r.shifts[i] == d.shifts[i].(assignedUsers := r.shifts[i].assignedUsers)
      && FirstCutOut(d.shifts[i].assignedUsers, r.shifts[i].assignedUsers, name)
    ensures forall i, u :: 0 <= i < |r.shifts| ==>
      Count(r.shifts[i].assignedUsers, u)
      == Count(d.shifts[i].assignedUsers, u) - (if u == name && name in d.shifts[i].assignedUsers then 1 else 0)
  {
    var r := AppData(RemoveMember(d.roster, name), DropPairsWith(d.conflicts, name), UnassignEverywhere(d.shifts, name));
    assert forall i, u :: 0 <= i < |r.shifts| ==>
      Count(r.shifts[i].assignedUsers, u)
      == Count(d.shifts[i].assignedUsers, u) - (if u == name && name in d.shifts[i].assignedUsers then 1 else 0) by {
      forall i, u | 0 <= i < |r.shifts| ensures Count(r.shifts[i].assignedUsers, u)
        == Count(d.shifts[i].assignedUsers, u) - (if u == name && name in d.shifts[i].assignedUsers then 1 else 0) {
        RemoveFirstCount(d.shifts[i].assignedUsers, name, u);
      }
    }
    r
  }

  /** One member of a conflict pair renamed. */
  function RenameIn(n: string, name: string, newName: string): string
  {
    if n == name then newName else n
  }

  function RenamePairs(conflicts: seq<(string, string)>, name: string, newName: string): (r: seq<(string, string)>)
    ensures |r| == |conflicts|
    ensures forall k :: 0 <= k < |r| ==>
      r[k] == (RenameIn(conflicts[k].0, name, newName), RenameIn(conflicts[k].1, name, newName))
    ensures name != newName ==> forall p :: p in r ==> p.0 != name && p.1 != name
  {
    seq(|conflicts|, k requires 0 <= k < |conflicts| =>
      (RenameIn(conflicts[k].0, name, newName), RenameIn(conflicts[k].1, name, newName)))
  }

  /** `after` is `before` with the first `name` cut out and `newName`
      appended (so of the same length, one `name` traded for one
      `newName`), or `before` itself when `name` does not occur. */
  ghost predicate Moved(before: seq<string>, after: seq<string>, name: string, newName: string)
  {
    if name in before then
      && |after| == |before| && after[|after| - 1] == newName
      && FirstCutOut(before, after[..|after| - 1], name)
      && multiset(after) == multiset(before) - multiset{name} + multiset{newName}
    else after == before
  }

  /** In a shift that lists `name`, its first occurrence is removed and
      `newName` is appended at the end; other shifts are unchanged. */
  function MoveAssignment(names: seq<string>, name: string, newName: string): (r: seq<string>)
    ensures name !in names ==> r == names
    ensures name in names ==> |r| == |names| && r[|r| - 1] == newName && FirstCutOut(names, r[..|r| - 1], name)
    ensures name in names ==> multiset(r) == multiset(names) - multiset{name} + multiset{newName}
    ensures Moved(names, r, name, newName)
  {
    if name in names then
      var removed := RemoveFirst(names, name);
      RemoveFirstMultiset(names, name);
      assert (removed + [newName])[..|removed|] == removed;
      assert multiset(removed + [newName]) == multiset(removed) + multiset{newName};
      removed + [newName]
    else names
  }

  /** Removing a present name takes exactly one copy of it out. */
  lemma RemoveFirstMultiset(names: seq<string>, name: string)
    requires name in names
    ensures multiset(RemoveFirst(names, name)) == multiset(names) - multiset{name}
    ensures |RemoveFirst(names, name)| == |names| - 1
  {
    var i := FirstIndex(names, name);
    var before, after := names[..i], names[i + 1..];
    assert names == before + [name] + after;
    assert multiset(names) == multiset(before) + multiset{name} + multiset(after);
    assert multiset(before + after) == multiset(before) + multiset(after);
  }

  /** Renaming member `name` to `newName` with a new record built from the
      dialog's cap, availability and colour. When the name changes it must be
      free; the old entry leaves the roster and the new one goes last, the
      conflict pairs and the shift lists follow the rename. When the name
      stays, only the record is replaced, in place. */
  function RenameUser(d: AppData, name: string, newName: string, maxShifts: int,
                      availability: map<int, seq<TimeRanges.TimeRange>>, color: string): (r: Result<AppData, EditError>)
    requires name in d.roster.users
    ensures r.Err? <==> newName != name && newName in d.roster.users
    ensures r.Err? ==> r.error == NameTaken
    ensures r.Ok? ==> var e := r.value;
      && newName in e.roster.users
      && e.roster.users[newName] == NewUser(newName, maxShifts, availability, color)
      && (newName != name ==> name !in e.roster.users)
      && (forall n :: n != name && n != newName ==>
            (n in e.roster.users <==> n in d.roster.users) &&
            (n in e.roster.users ==> e.roster.users[n] == d.roster.users[n]))
      && (d.roster.Valid() ==> e.roster.Valid())
      && (newName != name ==> forall p :: p in e.conflicts ==> p.0 != name && p.1 != name)
      && (newName != name ==>
            && |e.conflicts| == |d.conflicts|
            && forall k :: 0 <= k < |e.conflicts| ==>
                 e.conflicts[k] == (RenameIn(d.conflicts[k].0, name, newName), RenameIn(d.conflicts[k].1, name, newName)))
      && (newName == name ==> e.roster.names == d.roster.names)
      && (newName != name ==>
            && |e.roster.names| > 0 && e.roster.names[|e.roster.names| - 1] == newName
            && KeepsOthersInOrder(d.roster.names, e.roster.names[..|e.roster.names| - 1], name))
      && |e.shifts| == |d.shifts|
      && (forall i :: 0 <= i < |e.shifts| ==>
            e.shifts[i] == d.shifts[i].(assignedUsers := e.shifts[i].assignedUsers))
      && (newName == name ==> e.conflicts == d.conflicts && e.shifts == d.shifts)
      && (newName != name ==> forall i :: 0 <= i < |e.shifts| ==>
            Moved(d.shifts[i].assignedUsers, e.shifts[i].assignedUsers, name, newName))
  {
    var record := NewUser(newName, maxShifts, availability, color);
    if newName == name then
      Ok(d.(roster := d.roster.(users := d.roster.users[name := record])))
    else if newName in d.roster.users then
      Err(NameTaken)
    else
      var conflicts := RenamePairs(d.conflicts, name, newName);
      Ok(AppData(RenameMember(d.roster, name, newName, record), conflicts,
                 MoveAssignments(d.shifts, name, newName)))
  }

  /** The roster after a rename to a free name: the old entry leaves, the
      new one is inserted last, the others keep their order. */
  function RenameMember(roster: Roster, name: string, newName: string, record: User): (r: Roster)
    requires newName !in roster.users
    ensures |r.names| > 0 && r.names[|r.names| - 1] == newName
    ensures KeepsOthersInOrder(roster.names, r.names[..|r.names| - 1], name)
    ensures newName in r.users && r.users[newName] == record
    ensures name != newName ==> name !in r.users
    ensures forall n :: n != name && n != newName ==>
      (n in r.users <==> n in roster.users) && (n in r.users ==> r.users[n] == roster.users[n])
    ensures roster.Valid() ==> r.Valid()
  {
    var removed := RemoveMember(roster, name);
    var r := Roster(removed.names + [newName], removed.users[newName := record]);
    assert r.names[..|r.names| - 1] == removed.names;
    assert roster.Valid() ==> r.Valid() by {
      if roster.Valid() {
        assert newName !in removed.names;
      }
    }
    r
  }

  /** Every shift's list with the rename applied. */
  function MoveAssignments(shifts: seq<Shift>, name: string, newName: string): (r: seq<Shift>)
    ensures |r| == |shifts|
    ensures forall i :: 0 <= i < |r| ==>
      && r[i] == shifts[i].(assignedUsers := r[i].assignedUsers)
      && Moved(shifts[i].assignedUsers, r[i].assignedUsers, name, newName)
  {
    seq(|shifts|, i requires 0 <= i < |shifts| =>
      shifts[i].(assignedUsers := MoveAssignment(shifts[i].assignedUsers, name, newName)))
  }

  /** Renaming to a name no pair mentions and back restores the conflict
      pairs exactly. */
  lemma RenamePairsRoundTrip(conflicts: seq<(string, string)>, a: string, b: string)
    requires forall p :: p in conflicts ==> p.0 != b && p.1 != b
    ensures RenamePairs(RenamePairs(conflicts, a, b), b, a) == conflicts
  {
    var r := RenamePairs(RenamePairs(conflicts, a, b), b, a);
    forall k | 0 <= k < |conflicts| ensures r[k] == conflicts[k] {
      assert conflicts[k] in conflicts;
    }
  }

  /** The same unordered pair as (a, b). */
  predicate SamePair(p: (string, string), a: string, b: string)
  {
    (p.0 == a && p.1 == b) || (p.0 == b && p.1 == a)
  }

  /** Adding a conflict pair from the dialog: both names must be chosen,
      differ, and not already form a pair in either orientation. */
  function AddConflict(conflicts: seq<(string, string)>, user1: string, user2: string)
    : (r: Result<seq<(string, string)>, EditError>)
    ensures r == Err(MissingUser) <==> user1 == "" || user2 == ""
    ensures r == Err(SelfConflict) <==> user1 != "" && user2 != "" && user1 == user2
    ensures r == Err(DuplicatePair) <==>
      user1 != "" && user2 != "" && user1 != user2 && exists p :: p in conflicts && SamePair(p, user1, user2)
    ensures r.Ok? ==> r.value == conflicts + [(user1, user2)]
  {
    if user1 == "" || user2 == "" then Err(MissingUser)
    else if user1 == user2 then Err(SelfConflict)
    else if FindPair(conflicts, user1, user2) then Err(DuplicatePair)
    else Ok(conflicts + [(user1, user2)])
  }

  /** The duplicate scan of the dialog. */
  function FindPair(conflicts: seq<(string, string)>, a: string, b: string): (r: bool)
    ensures r <==> exists p :: p in conflicts && SamePair(p, a, b)
  {
    if |conflicts| == 0 then false
    else if SamePair(conflicts[0], a, b) then true
    else
      assert forall p :: p in conflicts <==> p == conflicts[0] || p in conflicts[1..];
      FindPair(conflicts[1..], a, b)
  }

  /** A conflict list as the dialog maintains it: no self pairs and no
      unordered pair twice. */
  ghost predicate WellFormedPairs(conflicts: seq<(string, string)>)
  {
    && (forall k :: 0 <= k < |conflicts| ==> conflicts[k].0 != conflicts[k].1)
    && (forall j, k :: 0 <= j < k < |conflicts| ==> !SamePair(conflicts[k], conflicts[j].0, conflicts[j].1))
  }

  /** Adding through the dialog keeps the list well formed. */
  lemma AddConflictKeepsWellFormed(conflicts: seq<(string, string)>, user1: string, user2: string)
    requires WellFormedPairs(conflicts)
    requires AddConflict(conflicts, user1, user2).Ok?
    ensures WellFormedPairs(AddConflict(conflicts, user1, user2).value)
  {
    var r := AddConflict(conflicts, user1, user2).value;
    forall j, k | 0 <= j < k < |r| ensures !SamePair(r[k], r[j].0, r[j].1) {
      if k == |conflicts| {
        assert r[j] == conflicts[j] && conflicts[j] in conflicts;
      }
    }
  }
}

=== FILE: safety.dfy ===
/** What a scheduling run guarantees: the output has the input's shape, no
    shift holds a conflicting pair, no member is booked on two overlapping
    shifts (when ids are distinct), nobody works more shifts than the cap,
    every assignee is in the roster and available at the shift's final time,
    and a member already at the cap is removed from every shift. */
module Safety {
  import opened Seqs
  import opened TimeRanges
  import opened Shifts
  import opened Users
  import opened Engine
  import opened SlotSearch
  import opened Assignment
  import opened Scheduling

  predicate SameIdentity(a: Shift, b: Shift)
  {
    a.id == b.id && a.name == b.name && a.shiftType == b.shiftType && a.requiredStaff == b.requiredStaff
  }

  predicate SameTimes(a: Shift, b: Shift)
  {
    && a.day == b.day && a.startHour == b.startHour && a.startMinute == b.startMinute
    && a.endHour == b.endHour && a.endMinute == b.endMinute
  }

  /** On the half-hour grid of one weekday, ending by midnight. */
  predicate OnGrid(sh: Shift)
  {
    && 0 <= sh.day < 7
    && 0 <= sh.startHour < 24
    && (sh.startMinute == 0 || sh.startMinute == 30)
    && sh.endHour * MinutesPerHour + sh.endMinute <= MinutesPerDay
  }

  /** Shift `i` overlaps no shift with a different id. */
  ghost predicate Isolated(all: seq<Shift>, i: int)
    requires 0 <= i < |all|
  {
    forall k :: 0 <= k < |all| && all[k].id != all[i].id ==> !all[i].OverlapsWith(all[k])
  }

  /** Where shift `i` may be: at its original time, or, when flexible, in a
      grid slot of the same duration that overlaps no other shift. */
  ghost predicate Positioned(orig: seq<Shift>, all: seq<Shift>, i: int)
    requires 0 <= i < |orig| == |all|
  {
    || SameTimes(all[i], orig[i])
    || (&& orig[i].shiftType == Flexible
        && OnGrid(all[i])
        && all[i].DurationMinutes() == orig[i].DurationMinutes()
        && Isolated(all, i))
  }

  ghost predicate DistinctIds(shifts: seq<Shift>)
  {
    forall j, k :: 0 <= j < |shifts| && 0 <= k < |shifts| && j != k ==> shifts[j].id != shifts[k].id
  }

  /** The shifts at positions `done` have been processed; the others are as
      they came in. */
  ghost predicate Shape(orig: seq<Shift>, done: set<nat>, all: seq<Shift>)
  {
    && |all| == |orig|
    && (forall j :: 0 <= j < |all| ==> SameIdentity(all[j], orig[j]) && Positioned(orig, all, j))
    && (forall j :: 0 <= j < |all| && j !in done ==> all[j] == orig[j])
    && (forall j :: 0 <= j < |all| && j in done ==>
          ExtendsKept(orig[j].assignedUsers, all[j].assignedUsers, orig[j].requiredStaff))
  }

  /** Every processed list is free of forward conflicts, and each of its
      members is in the roster, was below the cap when the run started, is
      still within the cap and is available at the shift's time. */
  ghost predicate Staffed(s: Scheduler, w0: Worked, done: set<nat>, all: seq<Shift>, w: Worked)
  {
    forall j :: 0 <= j < |all| && j in done ==>
      && NoConflictForward(s.conflicts, all[j].assignedUsers)
      && forall u :: u in all[j].assignedUsers ==>
           && u in s.roster.users
           && Get(w0, u) < s.roster.Cap(u)
           && Get(w, u) <= s.roster.Cap(u)
           && s.roster.users[u].IsAvailable(all[j].day, all[j].startHour, all[j].startMinute,
                                            all[j].endHour, all[j].endMinute)
  }

  ghost predicate Grown(w0: Worked, w: Worked)
  {
    forall u :: Get(w0, u) <= Get(w, u)
  }

  /** The counter bounds each roster member's occurrences. */
  ghost predicate Bounded(s: Scheduler, all: seq<Shift>, w: Worked)
  {
    forall u :: u in s.roster.users ==> Occurrences(all, u) <= Get(w, u)
  }

  /** Two processed overlapping shifts share no member. */
  ghost predicate Unbooked(orig: seq<Shift>, done: set<nat>, all: seq<Shift>)
  {
    DistinctIds(orig) ==>
      forall j, k :: 0 <= j < |all| && 0 <= k < |all| && j in done && k in done && j != k &&
                     all[j].OverlapsWith(all[k]) ==>
        forall u :: u in all[j].assignedUsers ==> u !in all[k].assignedUsers
  }

  ghost function Elements(order: seq<nat>): set<nat>
  {
    set x | x in order
  }

  ghost predicate Inv(s: Scheduler, orig: seq<Shift>, w0: Worked, done: set<nat>, all: seq<Shift>, w: Worked)
  {
    && Shape(orig, done, all)
    && Staffed(s, w0, done, all, w)
    && Grown(w0, w)
    && Bounded(s, all, w)
    && Unbooked(orig, done, all)
  }

  /** What placing shift `i` does: `placed` differs from `all` at most in
      the times of shift `i`, which either stay or move, in the flexible
      phase only, to a grid slot of the same duration overlapping no other
      shift. */
  ghost predicate PlaceFacts(i: int, relocate: bool, all: seq<Shift>, placed: seq<Shift>)
  {
    && 0 <= i < |all|
    && |placed| == |all|
    && (forall j :: 0 <= j < |all| && j != i ==> placed[j] == all[j])
    && SameIdentity(placed[i], all[i])
    && placed[i].assignedUsers == all[i].assignedUsers
    && placed[i].DurationMinutes() == all[i].DurationMinutes()
    && (SameTimes(placed[i], all[i]) || (relocate && OnGrid(placed[i]) && Isolated(placed, i)))
  }

  /** What staffing shift `i` of `placed` does, from counter `w` to `all2`
      and `w2`. */
  ghost predicate AssignFacts(s: Scheduler, i: int, w: Worked, placed: seq<Shift>, all2: seq<Shift>, w2: Worked)
  {
    && 0 <= i < |placed|
    && |all2| == |placed|
    && (forall j :: 0 <= j < |placed| && j != i ==> all2[j] == placed[j])
    && all2[i] == placed[i].(assignedUsers := all2[i].assignedUsers)
    && ExtendsKept(placed[i].assignedUsers, all2[i].assignedUsers, placed[i].requiredStaff)
    && NoConflictForward(s.conflicts, all2[i].assignedUsers)
    && (forall u :: u in all2[i].assignedUsers ==> s.Eligible(u, placed[i], w, placed))
    && (forall u :: Get(w, u) <= Get(w2, u))
    && (forall u :: Get(w2, u) > Get(w, u) ==> Get(w2, u) == Get(w, u) + 1 && u in all2[i].assignedUsers)
    && (forall u :: Count(all2[i].assignedUsers, u) <= Count(placed[i].assignedUsers, u) + Get(w2, u) - Get(w, u))
  }

  /** One processing step of shift `i`: placement, then staffing. */
  ghost predicate StepFacts(s: Scheduler, i: int, relocate: bool, all: seq<Shift>, w: Worked,
                            placed: seq<Shift>, all2: seq<Shift>, w2: Worked)
  {
    PlaceFacts(i, relocate, all, placed) && AssignFacts(s, i, w, placed, all2, w2)
  }

  /** Overlap and duration depend only on the day and the times. */
  lemma SameTimesAgree(a: Shift, b: Shift, c: Shift)
    requires SameTimes(a, b)
    ensures a.OverlapsWith(c) <==> b.OverlapsWith(c)
    ensures c.OverlapsWith(a) <==> c.OverlapsWith(b)
    ensures a.DurationMinutes() == b.DurationMinutes()
  {
  }

  lemma PlaceFactsHold(s: Scheduler, i: nat, relocate: bool, all: seq<Shift>, w: Worked)
    requires i < |all|
    ensures PlaceFacts(i, relocate, all, Scheduling.Placement(s, i, relocate, all, w))
  {
    if relocate && FindBestSlot(s, all[i], w, all).Some? {
      var slot := FindBestSlot(s, all[i], w, all).value;
      FoundSlotIsValid(s, all[i], w, all);
      MovedFacts(all, i, slot);
    }
  }

  /** Moving shift `i` to a free grid slot of the same duration meets the
      placement facts of the flexible phase. */
  lemma MovedFacts(all: seq<Shift>, i: nat, slot: Slot)
    requires i < |all|
    requires 0 <= slot.day < 7 && 0 <= slot.startHour < 24
    requires slot.startMinute == 0 || slot.startMinute == 30
    requires slot.endHour * MinutesPerHour + slot.endMinute <= MinutesPerDay
    requires Placed(all[i], slot).DurationMinutes() == all[i].DurationMinutes()
    requires !OverlapsAnyOther(Placed(all[i], slot), all[i].id, all)
    ensures PlaceFacts(i, true, all, all[i := Placed(all[i], slot)])
  {
    var placed := all[i := Placed(all[i], slot)];
    MovedIsolated(all, i, slot);
    assert placed[i] == Placed(all[i], slot);
    assert OnGrid(placed[i]);
    assert SameIdentity(placed[i], all[i]);
  }

  lemma MovedIsolated(all: seq<Shift>, i: nat, slot: Slot)
    requires i < |all|
    requires !OverlapsAnyOther(Placed(all[i], slot), all[i].id, all)
    ensures Isolated(all[i := Placed(all[i], slot)], i)
  {
    var placed := all[i := Placed(all[i], slot)];
    forall k | 0 <= k < |placed| && placed[k].id != placed[i].id
      ensures !placed[i].OverlapsWith(placed[k])
    {
      assert k != i && placed[k] == all[k];
    }
  }

  lemma AssignFactsHold(s: Scheduler, i: nat, w: Worked, placed: seq<Shift>, jitter: string -> nat)
    requires i < |placed|
    requires s.roster.Valid()
    ensures var next := AssignShiftBalanced(s, i, w, placed, jitter);
      AssignFacts(s, i, w, placed, next.0, next.1)
  {
  }

  lemma StepFactsHold(s: Scheduler, i: nat, relocate: bool, all: seq<Shift>, w: Worked, jitter: string -> nat)
    requires i < |all|
    requires s.roster.Valid()
    ensures var placed := Scheduling.Placement(s, i, relocate, all, w);
      var next := Step(s, i, relocate, all, w, jitter);
      StepFacts(s, i, relocate, all, w, placed, next.0, next.1)
  {
    PlaceFactsHold(s, i, relocate, all, w);
    AssignFactsHold(s, i, w, Scheduling.Placement(s, i, relocate, all, w), jitter);
  }

  lemma ShapeStep(orig: seq<Shift>, done: set<nat>, s: Scheduler, i: nat, relocate: bool,
                  all: seq<Shift>, w: Worked, placed: seq<Shift>, all2: seq<Shift>, w2: Worked)
    requires Shape(orig, done, all)
    requires i < |all| && i !in done
    requires relocate ==> orig[i].shiftType == Flexible
    requires StepFacts(s, i, relocate, all, w, placed, all2, w2)
    ensures Shape(orig, done + {i}, all2)
  {
    assert all[i] == orig[i];
    SameTimesAgree(all2[i], placed[i], all2[i]);
    forall j | 0 <= j < |all2| ensures Positioned(orig, all2, j) {
      if j == i {
        if !SameTimes(placed[i], all[i]) {
          forall k | 0 <= k < |all2| && all2[k].id != all2[i].id ensures !all2[i].OverlapsWith(all2[k]) {
            assert k != i;
            SameTimesAgree(all2[i], placed[i], all2[k]);
          }
        }
      } else if !SameTimes(all2[j], orig[j]) {
        assert Isolated(all, j);
        forall k | 0 <= k < |all2| && all2[k].id != all2[j].id ensures !all2[j].OverlapsWith(all2[k]) {
          if k == i {
            if SameTimes(placed[i], all[i]) {
              SameTimesAgree(all2[i], all[i], all[j]);
              OverlapsWithSymmetric(all[j], all[i]);
              OverlapsWithSymmetric(all2[j], all2[i]);
            } else {
              assert placed[j] == all2[j];
              SameTimesAgree(all2[i], placed[i], placed[j]);
              OverlapsWithSymmetric(all2[j], all2[i]);
            }
          }
        }
      }
    }
  }

  lemma StaffedStep(s: Scheduler, w0: Worked, done: set<nat>, i: nat, relocate: bool,
                    all: seq<Shift>, w: Worked, placed: seq<Shift>, all2: seq<Shift>, w2: Worked)
    requires Staffed(s, w0, done, all, w)
    requires Grown(w0, w)
    requires StepFacts(s, i, relocate, all, w, placed, all2, w2)
    ensures Staffed(s, w0, done + {i}, all2, w2)
    ensures Grown(w0, w2)
  {
    forall j, u | 0 <= j < |all2| && j in done + {i} && u in all2[j].assignedUsers
      ensures Get(w2, u) <= s.roster.Cap(u)
    {
      if Get(w2, u) > Get(w, u) {
        assert s.Eligible(u, placed[i], w, placed);
      }
    }
  }

  lemma BoundedStep(s: Scheduler, i: nat, relocate: bool,
                    all: seq<Shift>, w: Worked, placed: seq<Shift>, all2: seq<Shift>, w2: Worked)
    requires Bounded(s, all, w)
    requires StepFacts(s, i, relocate, all, w, placed, all2, w2)
    ensures Bounded(s, all2, w2)
  {
    assert all2 == all[i := all2[i]];
    forall u | u in s.roster.users ensures Occurrences(all2, u) <= Get(w2, u) {
      OccurrencesUpdate(all, i, all2[i], u);
    }
  }

  lemma UnbookedStep(orig: seq<Shift>, done: set<nat>, s: Scheduler, i: nat, relocate: bool,
                     all: seq<Shift>, w: Worked, placed: seq<Shift>, all2: seq<Shift>, w2: Worked)
    requires Unbooked(orig, done, all)
    requires Shape(orig, done, all)
    requires StepFacts(s, i, relocate, all, w, placed, all2, w2)
    ensures Unbooked(orig, done + {i}, all2)
  {
    if DistinctIds(orig) {
      forall j, k, u | 0 <= j < |all2| && 0 <= k < |all2| && j in done + {i} && k in done + {i} && j != k &&
                       all2[j].OverlapsWith(all2[k]) && u in all2[j].assignedUsers
        ensures u !in all2[k].assignedUsers
      {
        if j == i {
          NewMemberUnbooked(orig, s, i, relocate, all, w, placed, all2, w2, k, u);
        } else if k == i {
          OverlapsWithSymmetric(all2[j], all2[k]);
          NewMemberUnbooked(orig, s, i, relocate, all, w, placed, all2, w2, j, u);
        }
      }
    }
  }

  /** A member staffed on shift `i` is on no other overlapping shift. */
  lemma NewMemberUnbooked(orig: seq<Shift>, s: Scheduler, i: nat, relocate: bool,
                          all: seq<Shift>, w: Worked, placed: seq<Shift>, all2: seq<Shift>, w2: Worked,
                          k: nat, u: string)
    requires DistinctIds(orig)
    requires |all| == |orig| && forall j :: 0 <= j < |all| ==> SameIdentity(all[j], orig[j])
    requires StepFacts(s, i, relocate, all, w, placed, all2, w2)
    requires k < |all2| && k != i
    requires all2[i].OverlapsWith(all2[k])
    ensures u in all2[i].assignedUsers ==> u !in all2[k].assignedUsers
  {
    if u in all2[i].assignedUsers {
      assert s.Eligible(u, placed[i], w, placed);
      assert placed[k] == all2[k];
      assert placed[k].id != placed[i].id by {
        assert orig[k].id != orig[i].id;
      }
      SameTimesAgree(all2[i], placed[i], all2[k]);
    }
  }

  lemma StepPreserves(s: Scheduler, orig: seq<Shift>, w0: Worked, done: set<nat>, i: nat, relocate: bool,
                      all: seq<Shift>, w: Worked, jitter: string -> nat)
    requires s.roster.Valid()
    requires Inv(s, orig, w0, done, all, w)
    requires i < |all| && i !in done
    requires relocate ==> orig[i].shiftType == Flexible
    ensures var next := Step(s, i, relocate, all, w, jitter);
      Inv(s, orig, w0, done + {i}, next.0, next.1)
  {
    var placed := Scheduling.Placement(s, i, relocate, all, w);
    var next := Step(s, i, relocate, all, w, jitter);
    StepFactsHold(s, i, relocate, all, w, jitter);
    ShapeStep(orig, done, s, i, relocate, all, w, placed, next.0, next.1);
    StaffedStep(s, w0, done, i, relocate, all, w, placed, next.0, next.1);
    BoundedStep(s, i, relocate, all, w, placed, next.0, next.1);
    UnbookedStep(orig, done, s, i, relocate, all, w, placed, next.0, next.1);
  }

  lemma {:induction false} ProcessAllPreserves(s: Scheduler, orig: seq<Shift>, w0: Worked, done: set<nat>,
                                               order: seq<nat>, relocate: bool, all: seq<Shift>, w: Worked,
                                               jitter: (nat, string) -> nat, step: nat)
    requires s.roster.Valid()
    requires Inv(s, orig, w0, done, all, w)
    requires forall k :: 0 <= k < |order| ==> order[k] < |all| && order[k] !in done
    requires forall a, b :: 0 <= a < b < |order| ==> order[a] < order[b]
    requires relocate ==> forall k :: 0 <= k < |order| ==> orig[order[k]].shiftType == Flexible
    ensures var r := ProcessAll(s, order, relocate, all, w, jitter, step);
      Inv(s, orig, w0, done + Elements(order), r.0, r.1)
    decreases |order|
  {
    if |order| == 0 {
      assert done + Elements(order) == done;
    } else {
      var i := order[0];
      var next := Step(s, i, relocate, all, w, DrawsOf(jitter, step));
      StepPreserves(s, orig, w0, done, i, relocate, all, w, DrawsOf(jitter, step));
      var done' := done + {i};
      var rest := order[1..];
      TailOrder(done, order);
      ProcessAllPreserves(s, orig, w0, done', rest, relocate, next.0, next.1, jitter, step + 1);
      assert ProcessAll(s, order, relocate, all, w, jitter, step)
          == ProcessAll(s, rest, relocate, next.0, next.1, jitter, step + 1);
    }
  }

  /** The rest of an increasing order is increasing, avoids its head and
      the positions done, and together with the head covers the order. */
  lemma TailOrder(done: set<nat>, order: seq<nat>)
    requires |order| > 0
    requires forall k :: 0 <= k < |order| ==> order[k] !in done
    requires forall a, b :: 0 <= a < b < |order| ==> order[a] < order[b]
    ensures forall k :: 0 <= k < |order[1..]| ==> order[1..][k] == order[k + 1] && order[1..][k] !in done + {order[0]}
    ensures forall a, b :: 0 <= a < b < |order[1..]| ==> order[1..][a] < order[1..][b]
    ensures done + {order[0]} + Elements(order[1..]) == done + Elements(order)
  {
    assert forall x :: x in order <==> x == order[0] || x in order[1..];
  }

  /** The positions a run processes: the fixed ones, then the flexible ones. */
  ghost function Processed(shifts: seq<Shift>): set<nat>
  {
    Elements(IndicesOf(shifts, Fixed)) + Elements(IndicesOf(shifts, Flexible))
  }

  /** Every position is processed, as every shift is fixed or flexible. */
  lemma ProcessedCoversAll(shifts: seq<Shift>)
    ensures forall j :: 0 <= j < |shifts| ==> j in Processed(shifts)
  {
    forall j | 0 <= j < |shifts| ensures j in Processed(shifts) {
      if shifts[j].shiftType == Fixed {
        assert j in IndicesOf(shifts, Fixed);
      } else {
        assert j in IndicesOf(shifts, Flexible);
      }
    }
  }

  /** The invariant holds for the whole run, every position processed. */
  lemma RunInvariant(s: Scheduler, shifts: seq<Shift>, jitter: (nat, string) -> nat)
    requires s.roster.Valid()
    ensures var r := Run(s, shifts, jitter);
      Inv(s, shifts, InitialWorked(s, shifts), Processed(shifts), r.0, r.1)
  {
    var w0 := InitialWorked(s, shifts);
    var fixed := IndicesOf(shifts, Fixed);
    var flexible := IndicesOf(shifts, Flexible);
    var afterFixed := ProcessAll(s, fixed, false, shifts, w0, jitter, 0);
    FixedPhaseInv(s, shifts, jitter);
    FlexibleAfterFixed(shifts);
    ProcessAllPreserves(s, shifts, w0, Elements(fixed), flexible, true, afterFixed.0, afterFixed.1, jitter, |fixed|);
    assert Run(s, shifts, jitter)
        == ProcessAll(s, flexible, true, afterFixed.0, afterFixed.1, jitter, |fixed|);
  }

  /** After the fixed phase the invariant holds with the fixed positions
      processed. */
  lemma FixedPhaseInv(s: Scheduler, shifts: seq<Shift>, jitter: (nat, string) -> nat)
    requires s.roster.Valid()
    ensures var w0 := InitialWorked(s, shifts);
      var fixed := IndicesOf(shifts, Fixed);
      var r := ProcessAll(s, fixed, false, shifts, w0, jitter, 0);
      Inv(s, shifts, w0, Elements(fixed), r.0, r.1)
  {
    var w0 := InitialWorked(s, shifts);
    var fixed := IndicesOf(shifts, Fixed);
    InitialInv(s, shifts);
    ProcessAllPreserves(s, shifts, w0, {}, fixed, false, shifts, w0, jitter, 0);
    assert {} + Elements(fixed) == Elements(fixed);
  }

  /** The flexible positions are valid, increasing, of flexible shifts, none
      processed in the fixed phase, and the two phases cover `Processed`. */
  lemma FlexibleAfterFixed(shifts: seq<Shift>)
    ensures var fixed := IndicesOf(shifts, Fixed);
      var flexible := IndicesOf(shifts, Flexible);
      && (forall k :: 0 <= k < |flexible| ==>
            flexible[k] < |shifts| && flexible[k] !in Elements(fixed) && shifts[flexible[k]].shiftType == Flexible)
      && Elements(fixed) + Elements(flexible) == Processed(shifts)
  {
    var flexible := IndicesOf(shifts, Flexible);
    assert forall k :: 0 <= k < |flexible| ==> flexible[k] in flexible;
  }

  /** Before any step the invariant holds: nothing is processed and the
      counter equals each member's occurrences. */
  lemma InitialInv(s: Scheduler, shifts: seq<Shift>)
    requires s.roster.Valid()
    ensures Inv(s, shifts, InitialWorked(s, shifts), {}, shifts, InitialWorked(s, shifts))
  {
    var w0 := InitialWorked(s, shifts);
    assert Bounded(s, shifts, w0);
  }

  // ---------------------------------------------------------------------------
  // Guarantees of one run
  // ---------------------------------------------------------------------------

  /** The output lists the same shifts in the same order, with the same ids,
      names, types and staffing requirements. Fixed shifts keep their times;
      a flexible shift keeps its times or sits in a half-hour grid slot of
      one weekday with the same duration, ending by midnight and overlapping
      no shift with another id. Each list is a subsequence of the original
      list followed by new names, each different from all names before it,
      added only while the list was shorter than required. */
  lemma ScheduleKeepsShape(s: Scheduler, shifts: seq<Shift>, jitter: (nat, string) -> nat)
    requires s.roster.Valid()
    ensures var out := ScheduleShifts(s, shifts, jitter);
      && |out| == |shifts|
      && forall i :: 0 <= i < |out| ==>
           && SameIdentity(out[i], shifts[i])
           && (shifts[i].shiftType == Fixed ==> SameTimes(out[i], shifts[i]))
           && Positioned(shifts, out, i)
           && ExtendsKept(shifts[i].assignedUsers, out[i].assignedUsers, shifts[i].requiredStaff)
  {
    RunInvariant(s, shifts, jitter);
    ProcessedCoversAll(shifts);
  }

  /** With the conflict relation stored in both orientations, no shift of the
      output holds two members who conflict. */
  lemma NoConflictingPair(s: Scheduler, shifts: seq<Shift>, jitter: (nat, string) -> nat)
    requires s.Valid()
    ensures var out := ScheduleShifts(s, shifts, jitter);
      forall i :: 0 <= i < |out| ==> ConflictFree(s.conflicts, out[i].assignedUsers)
  {
    var out := ScheduleShifts(s, shifts, jitter);
    RunInvariant(s, shifts, jitter);
    ProcessedCoversAll(shifts);
    forall i | 0 <= i < |out| ensures ConflictFree(s.conflicts, out[i].assignedUsers) {
      ForwardCheckSuffices(s.conflicts, out[i].assignedUsers);
    }
  }

  /** Every assignee in the output is a roster member available, by one
      single stored range, for the shift's final day and times. */
  lemma AssigneesAvailable(s: Scheduler, shifts: seq<Shift>, jitter: (nat, string) -> nat)
    requires s.roster.Valid()
    ensures var out := ScheduleShifts(s, shifts, jitter);
      forall i, u :: 0 <= i < |out| && u in out[i].assignedUsers ==>
        && u in s.roster.users
        && s.roster.users[u].IsAvailable(out[i].day, out[i].startHour, out[i].startMinute,
                                         out[i].endHour, out[i].endMinute)
  {
    RunInvariant(s, shifts, jitter);
    ProcessedCoversAll(shifts);
  }

  /** Nobody appears in the output more often than the weekly cap allows,
      and everybody who appears is a roster member. */
  lemma CapRespected(s: Scheduler, shifts: seq<Shift>, jitter: (nat, string) -> nat)
    requires s.roster.Valid()
    ensures var out := ScheduleShifts(s, shifts, jitter);
      forall u :: Occurrences(out, u) > 0 ==> u in s.roster.users && Occurrences(out, u) <= s.roster.Cap(u)
  {
    var r := Run(s, shifts, jitter);
    RunInvariant(s, shifts, jitter);
    ProcessedCoversAll(shifts);
    CapFromCounter(s, InitialWorked(s, shifts), Processed(shifts), r.0, r.1);
  }

  /** With every position processed, the counter, which bounds each
      member's occurrences and stays within the cap of every assignee,
      bounds the occurrences by the cap. */
  lemma CapFromCounter(s: Scheduler, w0: Worked, done: set<nat>, all: seq<Shift>, w: Worked)
    requires forall j :: 0 <= j < |all| ==> j in done
    requires Staffed(s, w0, done, all, w)
    requires Bounded(s, all, w)
    ensures forall u :: Occurrences(all, u) > 0 ==> u in s.roster.users && Occurrences(all, u) <= s.roster.Cap(u)
  {
    forall u | Occurrences(all, u) > 0 ensures u in s.roster.users && Occurrences(all, u) <= s.roster.Cap(u) {
      OccurrencesPositive(all, u);
      var i :| 0 <= i < |all| && u in all[i].assignedUsers;
      assert i in done;
    }
  }

  /** When shift ids are distinct, no member is booked on two overlapping
      shifts of the output. */
  lemma NoDoubleBooking(s: Scheduler, shifts: seq<Shift>, jitter: (nat, string) -> nat)
    requires s.roster.Valid()
    requires DistinctIds(shifts)
    ensures var out := ScheduleShifts(s, shifts, jitter);
      forall i, j, u ::
        (0 <= i < |out| && 0 <= j < |out| && i != j && out[i].OverlapsWith(out[j]) && u in out[i].assignedUsers)
        ==> u !in out[j].assignedUsers
  {
    RunInvariant(s, shifts, jitter);
    ProcessedCoversAll(shifts);
  }

  /** A member whose existing assignments already reach the cap is on no
      shift after the run: the counter starts at those assignments, so the
      member fails the eligibility test everywhere, even on the shifts that
      listed them. Running the scheduler twice therefore need not give the
      same result. */
  lemma AtCapMemberUnassigned(s: Scheduler, shifts: seq<Shift>, jitter: (nat, string) -> nat, u: string)
    requires s.roster.Valid()
    requires u in s.roster.users
    requires Occurrences(shifts, u) >= s.roster.Cap(u)
    ensures Occurrences(ScheduleShifts(s, shifts, jitter), u) == 0
  {
    var out := ScheduleShifts(s, shifts, jitter);
    RunInvariant(s, shifts, jitter);
    ProcessedCoversAll(shifts);
    assert Get(InitialWorked(s, shifts), u) == Occurrences(shifts, u);
    forall i | 0 <= i < |out| ensures u !in out[i].assignedUsers {
      assert i in Processed(shifts);
    }
    OccurrencesPositive(out, u);
  }

  /** A schedule that already satisfies every guarantee above is not a fixed
      point: one member with a cap of one, staffed on the one shift that
      needs one person, is removed when the schedule is run again. */
  lemma RescheduleDropsAtCapMember(jitter: (nat, string) -> nat)
    ensures var s := Scheduler(Roster(["A"], map["A" := NewUser("A", 1, map[], DefaultColor)]), {});
      var desk := Shift("1", "Desk", Fixed, 0, 9, 0, 17, 0, 1, ["A"]);
      ScheduleShifts(s, [desk], jitter)[0].assignedUsers == []
  {
    var s := Scheduler(Roster(["A"], map["A" := NewUser("A", 1, map[], DefaultColor)]), {});
    var desk := Shift("1", "Desk", Fixed, 0, 9, 0, 17, 0, 1, ["A"]);
    var out := ScheduleShifts(s, [desk], jitter);
    assert s.roster.Valid();
    assert Occurrences([desk], "A") == 1 by {
      assert Count(desk.assignedUsers, "A") == 1;
    }
    AtCapMemberUnassigned(s, [desk], jitter, "A");
    AssigneesAvailable(s, [desk], jitter);
    OccurrencesPositive(out, "A");
    assert "A" !in out[0].assignedUsers;
  }
}

=== FILE: schedule.dfy ===
/** `schedule_shifts`: one scheduling run over a list of shifts. The run works
    on a copy, counts the assignments already present, staffs the fixed shifts
    in list order and then, in list order again, moves each flexible shift to
    its best slot (when one exists) and staffs it. */
module Scheduling {
  import opened Wrappers
  import opened Seqs
  import opened Shifts
  import opened Engine
  import opened SlotSearch
  import opened Assignment

  /** How many times `u` appears across the assignee lists of `shifts`,
      duplicates within one list included. */
  function Occurrences(shifts: seq<Shift>, u: string): nat
  {
    if |shifts| == 0 then 0 else Count(shifts[0].assignedUsers, u) + Occurrences(shifts[1..], u)
  }

  /** Counts each name of `names` that is a key of `worked` once more. */
  function CountNames(worked: Worked, names: seq<string>): (r: Worked)
    ensures r.Keys == worked.Keys
    ensures forall u :: u in worked ==> r[u] == worked[u] + Count(names, u)
    decreases |names|
  {
    if |names| == 0 then worked
    else
      var u := names[0];
      CountNames(if u in worked then worked[u := worked[u] + 1] else worked, names[1..])
  }

  /** The counting loop over every shift's assignee list. */
  function CountAssigned(worked: Worked, shifts: seq<Shift>): (r: Worked)
    ensures r.Keys == worked.Keys
    ensures forall u :: u in worked ==> r[u] == worked[u] + Occurrences(shifts, u)
    decreases |shifts|
  {
    if |shifts| == 0 then worked
    else CountAssigned(CountNames(worked, shifts[0].assignedUsers), shifts[1..])
  }

  /** The counter a run starts from: one key per roster member, holding the
      number of times the member already appears in the shifts' lists. Names
      outside the roster are not counted. */
  function InitialWorked(s: Scheduler, shifts: seq<Shift>): (w: Worked)
    ensures forall u :: u in w <==> u in s.roster.names
    ensures forall u :: Get(w, u) == if u in s.roster.names then Occurrences(shifts, u) else 0
  {
    CountAssigned(map n | n in s.roster.names :: 0, shifts)
  }

  /** Positions `from ..` of the shifts of type `t`, in list order. */
  function IndicesFrom(shifts: seq<Shift>, t: ShiftType, from: nat): (r: seq<nat>)
    ensures forall i :: i in r <==> from <= i < |shifts| && shifts[i].shiftType == t
    ensures forall k :: 0 <= k < |r| ==> from <= r[k] < |shifts| && shifts[r[k]].shiftType == t
    ensures forall a, b :: 0 <= a < b < |r| ==> r[a] < r[b]
    decreases |shifts| - from
  {
    if from >= |shifts| then []
    else
      var rest := IndicesFrom(shifts, t, from + 1);
      assert forall k :: 0 <= k < |rest| ==> rest[k] in rest;
      if shifts[from].shiftType == t then [from] + rest else rest
  }

  /** Positions of the shifts of type `t`, in list order. */
  function IndicesOf(shifts: seq<Shift>, t: ShiftType): (r: seq<nat>)
    ensures forall i :: i in r <==> 0 <= i < |shifts| && shifts[i].shiftType == t
    ensures forall k :: 0 <= k < |r| ==> r[k] < |shifts| && shifts[r[k]].shiftType == t
    ensures forall a, b :: 0 <= a < b < |r| ==> r[a] < r[b]
  {
    IndicesFrom(shifts, t, 0)
  }

  /** The list before shift `i` is staffed: in the flexible phase the shift
      moves to the best slot when the search finds one; otherwise it stays. */
  function Placement(s: Scheduler, i: nat, relocate: bool, all: seq<Shift>, worked: Worked): (r: seq<Shift>)
    requires i < |all|
    ensures |r| == |all|
    ensures forall j :: 0 <= j < |all| && j != i ==> r[j] == all[j]
    ensures !relocate ==> r == all
    ensures relocate && FindBestSlot(s, all[i], worked, all).None? ==> r == all
    ensures relocate && FindBestSlot(s, all[i], worked, all).Some? ==>
      r[i] == Placed(all[i], FindBestSlot(s, all[i], worked, all).value)
  {
    if !relocate then all
    else
      match FindBestSlot(s, all[i], worked, all)
      case None => all
      case Some(slot) => all[i := Placed(all[i], slot)]
  }

  /** Processing of shift `i`: placement, then staffing. */
  function Step(s: Scheduler, i: nat, relocate: bool, all: seq<Shift>, worked: Worked, jitter: string -> nat)
    : (r: (seq<Shift>, Worked))
    requires i < |all|
    requires s.roster.Valid()
    ensures |r.0| == |all|
  {
    AssignShiftBalanced(s, i, worked, Placement(s, i, relocate, all, worked), jitter)
  }

  /** The draws of the `step`-th staffing call. */
  function DrawsOf(jitter: (nat, string) -> nat, step: nat): string -> nat
  {
    c => jitter(step, c)
  }

  /** Processes the shifts at positions `order`, one after the other; the
      `k`-th call of the run draws its tie-breaks from `jitter(step + k, _)`. */
  function ProcessAll(s: Scheduler, order: seq<nat>, relocate: bool, all: seq<Shift>, worked: Worked,
                      jitter: (nat, string) -> nat, step: nat): (r: (seq<Shift>, Worked))
    requires s.roster.Valid()
    requires forall k :: 0 <= k < |order| ==> order[k] < |all|
    ensures |r.0| == |all|
    decreases |order|
  {
    if |order| == 0 then (all, worked)
    else
      var next := Step(s, order[0], relocate, all, worked, DrawsOf(jitter, step));
      ProcessAll(s, order[1..], relocate, next.0, next.1, jitter, step + 1)
  }

  /** The whole run, with the counter it ends with. `jitter(k, c)` stands
      for the random tie-break draw of candidate `c` in the `k`-th staffing
      call. */
  function Run(s: Scheduler, shifts: seq<Shift>, jitter: (nat, string) -> nat): (r: (seq<Shift>, Worked))
    requires s.roster.Valid()
    ensures |r.0| == |shifts|
  {
    var worked := InitialWorked(s, shifts);
    var fixed := IndicesOf(shifts, Fixed);
    var flexible := IndicesOf(shifts, Flexible);
    var afterFixed := ProcessAll(s, fixed, false, shifts, worked, jitter, 0);
    ProcessAll(s, flexible, true, afterFixed.0, afterFixed.1, jitter, |fixed|)
  }

  /** The scheduled copy of the shifts. */
  function ScheduleShifts(s: Scheduler, shifts: seq<Shift>, jitter: (nat, string) -> nat): (r: seq<Shift>)
    requires s.roster.Valid()
    ensures |r| == |shifts|
  {
    Run(s, shifts, jitter).0
  }

  /** Replacing one shift changes the occurrence count by the difference of
      the two lists' counts. */
  lemma {:induction false} OccurrencesUpdate(shifts: seq<Shift>, i: nat, sh: Shift, u: string)
    requires i < |shifts|
    ensures Occurrences(shifts[i := sh], u)
            == Occurrences(shifts, u) - Count(shifts[i].assignedUsers, u) + Count(sh.assignedUsers, u)
    decreases |shifts|
  {
    if i > 0 {
      OccurrencesUpdate(shifts[1..], i - 1, sh, u);
      assert shifts[i := sh][1..] == shifts[1..][i - 1 := sh];
    }
  }

  /** A name occurs somewhere exactly when some shift's list holds it. */
  lemma {:induction false} OccurrencesPositive(shifts: seq<Shift>, u: string)
    ensures Occurrences(shifts, u) > 0 <==> exists i :: 0 <= i < |shifts| && u in shifts[i].assignedUsers
    decreases |shifts|
  {
    if |shifts| > 0 {
      OccurrencesPositive(shifts[1..], u);
      CountPositiveIffMember(shifts[0].assignedUsers, u);
      if exists i :: 0 <= i < |shifts| && u in shifts[i].assignedUsers {
        var i :| 0 <= i < |shifts| && u in shifts[i].assignedUsers;
        if i > 0 {
          assert u in shifts[1..][i - 1].assignedUsers;
        }
      }
      if exists i :: 0 <= i < |shifts[1..]| && u in shifts[1..][i].assignedUsers {
        var i :| 0 <= i < |shifts[1..]| && u in shifts[1..][i].assignedUsers;
        assert u in shifts[i + 1].assignedUsers;
      }
    }
  }
}

=== FILE: seqs.dfy ===
/** Small facts about sequences used across the scheduler model:
    occurrence counts, distinctness and the subsequence relation. */
module Seqs {

  /** Number of occurrences of `x` in `s`. */
  function Count<T(==)>(s: seq<T>, x: T): nat
  {
    if |s| == 0 then 0 else (if s[0] == x then 1 else 0) + Count(s[1..], x)
  }

  /** No element occurs twice. */
  predicate Distinct<T(==)>(s: seq<T>)
  {
    forall i, j :: 0 <= i < j < |s| ==> s[i] != s[j]
  }

  /** `a` can be obtained from `b` by deleting elements, keeping order. */
  predicate IsSubseq<T(==)>(a: seq<T>, b: seq<T>)
    decreases |b|
  {
    if |a| == 0 then true
    else if |b| == 0 then false
    else if a[0] == b[0] then IsSubseq(a[1..], b[1..])
    else IsSubseq(a, b[1..])
  }

  /** Concatenation of a sequence of sequences. */
  function Flatten<T>(ss: seq<seq<T>>): seq<T>
  {
    if |ss| == 0 then [] else ss[0] + Flatten(ss[1..])
  }

  lemma {:induction false} CountAppend<T>(a: seq<T>, b: seq<T>, x: T)
    ensures Count(a + b, x) == Count(a, x) + Count(b, x)
    decreases |a|
  {
    if |a| == 0 {
      assert a + b == b;
    } else {
      assert (a + b)[1..] == a[1..] + b;
      CountAppend(a[1..], b, x);
    }
  }

  lemma {:induction false} CountPositiveIffMember<T>(s: seq<T>, x: T)
    ensures Count(s, x) > 0 <==> x in s
    decreases |s|
  {
    if |s| > 0 {
      CountPositiveIffMember(s[1..], x);
      assert x in s <==> s[0] == x || x in s[1..];
    }
  }

  /** A distinct sequence holds each of its elements exactly once. */
  lemma {:induction false} DistinctCountOne<T>(s: seq<T>, x: T)
    requires Distinct(s)
    requires x in s
    ensures Count(s, x) == 1
    decreases |s|
  {
    if s[0] == x {
      CountPositiveIffMember(s[1..], x);
      assert x !in s[1..] by {
        forall k | 0 <= k < |s[1..]| ensures s[1..][k] != x {
          assert s[1..][k] == s[k + 1];
        }
      }
    } else {
      DistinctCountOne(s[1..], x);
    }
  }

  lemma {:induction false} SubseqCount<T>(a: seq<T>, b: seq<T>, x: T)
    requires IsSubseq(a, b)
    ensures Count(a, x) <= Count(b, x)
    decreases |b|
  {
    if |a| == 0 {
    } else if a[0] == b[0] {
      SubseqCount(a[1..], b[1..], x);
    } else {
      SubseqCount(a, b[1..], x);
    }
  }

  lemma {:induction false} SubseqMembers<T>(a: seq<T>, b: seq<T>)
    requires IsSubseq(a, b)
    ensures forall x :: x in a ==> x in b
    decreases |b|
  {
    if |a| == 0 {
    } else if a[0] == b[0] {
      SubseqMembers(a[1..], b[1..]);
      assert forall x :: x in a ==> x == a[0] || x in a[1..];
    } else {
      SubseqMembers(a, b[1..]);
    }
  }

  lemma {:induction false} SubseqDistinct<T>(a: seq<T>, b: seq<T>)
    requires IsSubseq(a, b)
    requires Distinct(b)
    ensures Distinct(a)
    decreases |b|
  {
    if |a| == 0 {
    } else if a[0] == b[0] {
      SubseqDistinct(a[1..], b[1..]);
      SubseqMembers(a[1..], b[1..]);
      assert a[0] !in b[1..];
      forall i, j | 0 <= i < j < |a| ensures a[i] != a[j] {
        if i == 0 {
          assert a[j] == a[1..][j - 1];
        } else {
          assert a[i] == a[1..][i - 1] && a[j] == a[1..][j - 1];
        }
      }
    } else {
      SubseqDistinct(a, b[1..]);
    }
  }

  lemma {:induction false} SubseqAppendLeft<T>(a: seq<T>, b: seq<T>, x: T)
    requires IsSubseq(a, b)
    ensures IsSubseq([x] + a, [x] + b)
  {
    assert ([x] + a)[1..] == a;
    assert ([x] + b)[1..] == b;
  }

  lemma {:induction false} SubseqSkipLeft<T>(a: seq<T>, b: seq<T>, x: T)
    requires IsSubseq(a, b)
    ensures IsSubseq(a, [x] + b)
    decreases |b|, 1
  {
    assert ([x] + b)[1..] == b;
    if |a| > 0 && a[0] == x {
      SubseqOfTail(a, b);
      assert IsSubseq(a[1..], b);
    }
  }

  lemma {:induction false} SubseqOfTail<T>(a: seq<T>, b: seq<T>)
    requires |a| > 0
    requires IsSubseq(a, b)
    ensures IsSubseq(a[1..], b)
    decreases |b|, 0
  {
    if a[0] == b[0] {
      SubseqSkipLeft(a[1..], b[1..], b[0]);
      assert [b[0]] + b[1..] == b;
    } else {
      SubseqOfTail(a, b[1..]);
      SubseqSkipLeft(a[1..], b[1..], b[0]);
      assert [b[0]] + b[1..] == b;
    }
  }

  lemma {:induction false} SubseqRefl<T>(a: seq<T>)
    ensures IsSubseq(a, a)
    decreases |a|
  {
    if |a| > 0 {
      SubseqRefl(a[1..]);
    }
  }

  /** The positions of `xs` whose element passes `ok`. */
  ghost function Positions<T>(xs: seq<T>, ok: T -> bool): set<int>
  {
    set j | 0 <= j < |xs| && ok(xs[j])
  }

  /** Counting positions one element at a time from the front. */
  lemma PositionsSplit<T>(xs: seq<T>, ok: T -> bool)
    requires |xs| > 0
    ensures |Positions(xs, ok)| == |Positions(xs[..|xs| - 1], ok)| + (if ok(xs[|xs| - 1]) then 1 else 0)
  {
    var last := |xs| - 1;
    var front := xs[..last];
    assert forall j :: 0 <= j < last ==> front[j] == xs[j];
    var lastSet := if ok(xs[last]) then {last} else {};
    assert last !in Positions(front, ok);
    assert Positions(xs, ok) == Positions(front, ok) + lastSet;
  }
}

=== FILE: shifts.dfy ===
/** Shifts: a unit of work on one weekday (0 = Monday .. 6 = Sunday) with a
    start and end time, a required head count and the names assigned to it. */
module Shifts {
  import opened TimeRanges

  /** Fixed shifts never move; flexible ones may be relocated by the scheduler. */
  datatype ShiftType = Fixed | Flexible

  datatype Shift = Shift(
    id: string,
    name: string,
    shiftType: ShiftType,
    day: int,
    startHour: int,
    startMinute: int,
    endHour: int,
    endMinute: int,
    requiredStaff: int,
    assignedUsers: seq<string>)
  {
    function ToTimeRange(): TimeRange
    {
      TimeRange(startHour, startMinute, endHour, endMinute)
    }

    /** Length of the shift in minutes (negative for an inverted shift). */
    function DurationMinutes(): (d: int)
      ensures ToTimeRange().StartMinutes() + d == ToTimeRange().EndMinutes()
    {
      (endHour * MinutesPerHour + endMinute) - (startHour * MinutesPerHour + startMinute)
    }

    /** Two shifts overlap when they are on the same day and their times overlap. */
    predicate OverlapsWith(other: Shift)
    {
      day == other.day && ToTimeRange().Overlaps(other.ToTimeRange())
    }
  }

  lemma OverlapsWithSymmetric(a: Shift, b: Shift)
    ensures a.OverlapsWith(b) <==> b.OverlapsWith(a)
  {
  }

  /** Shifts on different days never overlap, whatever their times. */
  lemma DifferentDaysNeverOverlap(a: Shift, b: Shift)
    requires a.day != b.day
    ensures !a.OverlapsWith(b)
  {
  }

  /** For non-empty shifts, overlap means some minute of some day lies in both. */
  lemma OverlapsWithIffCommonMinute(a: Shift, b: Shift)
    requires a.DurationMinutes() > 0 && b.DurationMinutes() > 0
    ensures a.OverlapsWith(b) <==>
      a.day == b.day && exists h, m :: a.ToTimeRange().ContainsTime(h, m) && b.ToTimeRange().ContainsTime(h, m)
  {
    OverlapsIffCommonMinute(a.ToTimeRange(), b.ToTimeRange());
  }
}

=== FILE: slot_search.dfy ===
/** The brute-force placement search for a flexible shift: every weekday and
    every half-hour start, scored by how many members could work the slot. */
module SlotSearch {
  import opened Wrappers
  import opened Seqs
  import opened TimeRanges
  import opened Shifts
  import opened Engine

  const HalfHoursPerDay := 48
  /** Number of candidate slots: 7 days of 48 half-hour starts. */
  const SlotCount := 7 * HalfHoursPerDay

  /** A placement: day and start/end hour and minute. */
  datatype Slot = Slot(day: int, startHour: int, startMinute: int, endHour: int, endMinute: int)

  /** The `k`-th slot in scan order (day-major, then hour, then minute 0 or 30)
      for a shift lasting `duration` minutes; the end is split into hour and
      minute by division by 60. */
  function SlotAt(k: nat, duration: int): Slot
  {
    var day := k / HalfHoursPerDay;
    var startHour := (k % HalfHoursPerDay) / 2;
    var startMinute := (k % 2) * 30;
    var end := startHour * MinutesPerHour + startMinute + duration;
    Slot(day, startHour, startMinute, end / MinutesPerHour, end % MinutesPerHour)
  }

  /** The shift moved to `slot`; every other field, the id included, is kept. */
  function Placed(shift: Shift, slot: Slot): Shift
  {
    shift.(day := slot.day, startHour := slot.startHour, startMinute := slot.startMinute,
           endHour := slot.endHour, endMinute := slot.endMinute)
  }

  /** `test` overlaps some shift of `allShifts` whose id differs from `id`. */
  function OverlapsAnyOther(test: Shift, id: string, allShifts: seq<Shift>): (r: bool)
    ensures r <==> exists j :: 0 <= j < |allShifts| && allShifts[j].id != id && test.OverlapsWith(allShifts[j])
  {
    if |allShifts| == 0 then false
    else if allShifts[0].id != id && test.OverlapsWith(allShifts[0]) then true
    else
      var rest := OverlapsAnyOther(test, id, allShifts[1..]);
      assert forall j :: 1 <= j < |allShifts| ==> allShifts[j] == allShifts[1..][j - 1];
      rest
  }

  /** A member who counts toward a slot's score: below the cap and available.
      Conflicts and existing bookings are not considered. */
  predicate CanWork(s: Scheduler, name: string, worked: Worked, slot: Slot)
  {
    && name in s.roster.users
    && Get(worked, name) < s.roster.Cap(name)
    && s.roster.users[name].IsAvailable(slot.day, slot.startHour, slot.startMinute, slot.endHour, slot.endMinute)
  }

  /** The test of `CanWork` as a predicate on names. */
  function WorkerTest(s: Scheduler, worked: Worked, slot: Slot): string -> bool
  {
    n => CanWork(s, n, worked, slot)
  }

  /** How many of `names` can work `slot`: the running count of the loop
      over the roster, one step per name. */
  function CountAvailable(s: Scheduler, names: seq<string>, worked: Worked, slot: Slot): (r: nat)
    ensures r == |Positions(names, WorkerTest(s, worked, slot))|
    ensures r <= |names|
    ensures r == 0 <==> forall n :: n in names ==> !CanWork(s, n, worked, slot)
    ensures r == |names| <==> forall n :: n in names ==> CanWork(s, n, worked, slot)
  {
    if |names| == 0 then
      0
    else
      var last := |names| - 1;
      var front := names[..last];
      var before := CountAvailable(s, front, worked, slot);
      var step := if CanWork(s, names[last], worked, slot) then 1 else 0;
      PositionsSplit(names, WorkerTest(s, worked, slot));
      assert WorkerTest(s, worked, slot)(names[last]) == CanWork(s, names[last], worked, slot);
      assert forall n :: n in names <==> n in front || n == names[last];
      before + step
  }

  /** The slot's end lies within the day. */
  predicate WithinDay(k: nat, duration: int)
  {
    var slot := SlotAt(k, duration);
    slot.startHour * MinutesPerHour + slot.startMinute + duration <= MinutesPerDay
  }

  function Score(s: Scheduler, shift: Shift, worked: Worked, k: nat): nat
  {
    CountAvailable(s, s.roster.names, worked, SlotAt(k, shift.DurationMinutes()))
  }

  /** Slot `k` may be chosen: it ends within the day, collides with no other
      shift, and enough members could work it. */
  predicate Qualifies(s: Scheduler, shift: Shift, worked: Worked, allShifts: seq<Shift>, k: nat)
  {
    && WithinDay(k, shift.DurationMinutes())
    && !OverlapsAnyOther(Placed(shift, SlotAt(k, shift.DurationMinutes())), shift.id, allShifts)
    && Score(s, shift, worked, k) >= shift.requiredStaff
  }

  /** What a scan over slots 0 .. k-1 knows, for any qualification test
      `qual` and score `score`: `best` is the first slot of highest score
      among those that qualified, with score `bestScore`, or none qualified
      and `bestScore` is still -1. */
  ghost predicate BestSoFar(qual: nat -> bool, score: nat -> int, k: nat, best: Option<nat>, bestScore: int)
  {
    && (best.None? ==> bestScore == -1 && forall j :: 0 <= j < k ==> !qual(j))
    && (best.Some? ==>
          && best.value < k
          && qual(best.value)
          && bestScore == score(best.value)
          && (forall j :: 0 <= j < k && qual(j) ==> score(j) <= bestScore)
          && (forall j :: 0 <= j < best.value && qual(j) ==> score(j) < bestScore))
  }

  /** Looking at one more slot keeps the scan's knowledge, when a slot
      replaces the best one only with a strictly higher, non-negative score. */
  lemma BestStep(qual: nat -> bool, score: nat -> int, k: nat, best: Option<nat>, bestScore: int)
    requires BestSoFar(qual, score, k, best, bestScore)
    requires forall j :: qual(j) ==> score(j) >= 0
    ensures if qual(k) && score(k) > bestScore then BestSoFar(qual, score, k + 1, Some(k), score(k))
            else BestSoFar(qual, score, k + 1, best, bestScore)
  {
  }

  /** The qualification test and the score of the scan, as functions of the
      slot index. */
  function QualOf(s: Scheduler, shift: Shift, worked: Worked, allShifts: seq<Shift>): nat -> bool
  {
    (k: nat) => Qualifies(s, shift, worked, allShifts, k)
  }

  function ScoreOf(s: Scheduler, shift: Shift, worked: Worked): nat -> int
  {
    (k: nat) => Score(s, shift, worked, k)
  }

  ghost predicate ScanState(s: Scheduler, shift: Shift, worked: Worked, allShifts: seq<Shift>,
                            k: nat, best: Option<nat>, bestScore: int)
  {
    k <= SlotCount && BestSoFar(QualOf(s, shift, worked, allShifts), ScoreOf(s, shift, worked), k, best, bestScore)
  }

  /** The scan from slot `k` on, returning the best slot index and its score;
      a qualifying slot replaces the best one only with a strictly higher
      score, so the first of equal scores is kept. */
  function ScanFrom(s: Scheduler, shift: Shift, worked: Worked, allShifts: seq<Shift>,
                    k: nat, best: Option<nat>, bestScore: int): (r: (Option<nat>, int))
    requires ScanState(s, shift, worked, allShifts, k, best, bestScore)
    ensures ScanState(s, shift, worked, allShifts, SlotCount, r.0, r.1)
    decreases SlotCount - k
  {
    if k == SlotCount then (best, bestScore)
    else
      var score := Score(s, shift, worked, k);
      BestStep(QualOf(s, shift, worked, allShifts), ScoreOf(s, shift, worked), k, best, bestScore);
      if Qualifies(s, shift, worked, allShifts, k) && score > bestScore then
        ScanFrom(s, shift, worked, allShifts, k + 1, Some(k), score)
      else
        ScanFrom(s, shift, worked, allShifts, k + 1, best, bestScore)
  }

  /** `_find_best_slot`: the first slot, in scan order, of highest score among
      those that qualify, or None when no slot qualifies. */
  function FindBestSlot(s: Scheduler, shift: Shift, worked: Worked, allShifts: seq<Shift>): (r: Option<Slot>)
    ensures r.None? <==> forall k :: 0 <= k < SlotCount ==> !Qualifies(s, shift, worked, allShifts, k)
    ensures r.Some? ==>
      exists k :: && 0 <= k < SlotCount
                  && r.value == SlotAt(k, shift.DurationMinutes())
                  && Qualifies(s, shift, worked, allShifts, k)
                  && (forall j :: 0 <= j < SlotCount && Qualifies(s, shift, worked, allShifts, j) ==>
                        Score(s, shift, worked, j) <= Score(s, shift, worked, k))
                  && (forall j :: 0 <= j < k && Qualifies(s, shift, worked, allShifts, j) ==>
                        Score(s, shift, worked, j) < Score(s, shift, worked, k))
  {
    var (best, _) := ScanFrom(s, shift, worked, allShifts, 0, None, -1);
    assert forall j: nat :: QualOf(s, shift, worked, allShifts)(j) == Qualifies(s, shift, worked, allShifts, j);
    assert forall j: nat :: ScoreOf(s, shift, worked)(j) == Score(s, shift, worked, j);
    match best
    case None => None
    case Some(k) => Some(SlotAt(k, shift.DurationMinutes()))
  }

  /** Slot `k` of the scan lies on the half-hour grid of day `k / 48`, and
      splitting its end into hour and minute loses nothing, so the placed
      shift keeps its duration. */
  lemma SlotAtOnGrid(k: nat, duration: int)
    requires k < SlotCount
    ensures var slot := SlotAt(k, duration);
      && 0 <= slot.day < 7
      && 0 <= slot.startHour < 24
      && (slot.startMinute == 0 || slot.startMinute == 30)
      && slot.endHour * MinutesPerHour + slot.endMinute == slot.startHour * MinutesPerHour + slot.startMinute + duration
  {
    var startHour := (k % HalfHoursPerDay) / 2;
    var startMinute := (k % 2) * 30;
    var end := startHour * MinutesPerHour + startMinute + duration;
    assert (end / 60) * 60 + end % 60 == end;
  }

  /** Every slot the search can return lies on the half-hour grid of one of
      the seven days, keeps the shift's duration, ends by midnight, collides
      with no other shift and has enough members able to work it. */
  lemma FoundSlotIsValid(s: Scheduler, shift: Shift, worked: Worked, allShifts: seq<Shift>)
    ensures FindBestSlot(s, shift, worked, allShifts).Some? ==>
      var slot := FindBestSlot(s, shift, worked, allShifts).value;
      && 0 <= slot.day < 7
      && 0 <= slot.startHour < 24
      && (slot.startMinute == 0 || slot.startMinute == 30)
      && Placed(shift, slot).DurationMinutes() == shift.DurationMinutes()
      && slot.endHour * MinutesPerHour + slot.endMinute <= MinutesPerDay
      && !OverlapsAnyOther(Placed(shift, slot), shift.id, allShifts)
      && CountAvailable(s, s.roster.names, worked, slot) >= shift.requiredStaff
  {
    if FindBestSlot(s, shift, worked, allShifts).Some? {
      var slot := FindBestSlot(s, shift, worked, allShifts).value;
      var duration := shift.DurationMinutes();
      var k :| 0 <= k < SlotCount && slot == SlotAt(k, duration) && Qualifies(s, shift, worked, allShifts, k);
      SlotAtOnGrid(k, duration);
    }
  }
}

=== FILE: sorting.dfy ===
/** A stable sort by an integer key, the model of Python's `sorted(xs, key=...)`
    and `list.sort(key=...)`. Python's sort is stable, also with `reverse=True`,
    which keeps equal-key elements in their original order; a descending sort is
    therefore the ascending sort by the negated key. */
module Sorting {
  import opened Seqs

  /** Keys never decrease along `s`. */
  predicate SortedBy<T>(s: seq<T>, key: T -> int)
  {
    forall i, j :: 0 <= i < j < |s| ==> key(s[i]) <= key(s[j])
  }

  /** The elements of `s` whose key is `k`, in their order in `s`. */
  function WithKey<T>(s: seq<T>, key: T -> int, k: int): seq<T>
  {
    if |s| == 0 then []
    else (if key(s[0]) == k then [s[0]] else []) + WithKey(s[1..], key, k)
  }

  /** Puts `x` in front of the first element whose key is at least `key(x)`. */
  function Insert<T>(x: T, s: seq<T>, key: T -> int): (r: seq<T>)
    ensures multiset(r) == multiset(s) + multiset{x}
    ensures |r| == |s| + 1
    ensures SortedBy(s, key) ==> SortedBy(r, key)
  {
    if |s| == 0 then [x]
    else if key(x) <= key(s[0]) then [x] + s
    else
      var rest := Insert(x, s[1..], key);
      assert s == [s[0]] + s[1..];
      if SortedBy(s, key) then
        InsertSortedCons(x, s, rest, key);
        [s[0]] + rest
      else
        [s[0]] + rest
  }

  /** The head of a sorted sequence, whose key is below `key(x)`, stays in
      front of the insertion into the tail. */
  lemma InsertSortedCons<T>(x: T, s: seq<T>, rest: seq<T>, key: T -> int)
    requires |s| > 0 && key(x) > key(s[0])
    requires SortedBy(s, key)
    requires multiset(rest) == multiset(s[1..]) + multiset{x}
    requires SortedBy(rest, key)
    ensures SortedBy([s[0]] + rest, key)
  {
    forall j | 0 <= j < |rest| ensures key(s[0]) <= key(rest[j]) {
      assert rest[j] in multiset(rest);
      if rest[j] != x {
        assert rest[j] in multiset(s[1..]);
        var t :| 0 <= t < |s[1..]| && s[1..][t] == rest[j];
        assert s[t + 1] == rest[j];
      }
    }
    var r := [s[0]] + rest;
    forall i, j | 0 <= i < j < |r| ensures key(r[i]) <= key(r[j]) {
      if i > 0 {
        assert r[i] == rest[i - 1] && r[j] == rest[j - 1];
      } else {
        assert r[j] == rest[j - 1];
      }
    }
  }

  /** Insertion sort: sorts the tail, then inserts the head before every
      element of equal key, which is what makes the sort stable. */
  function SortBy<T>(s: seq<T>, key: T -> int): (r: seq<T>)
    ensures multiset(r) == multiset(s)
    ensures |r| == |s|
    ensures SortedBy(r, key)
  {
    if |s| == 0 then []
    else
      assert s == [s[0]] + s[1..];
      Insert(s[0], SortBy(s[1..], key), key)
  }

  /** The elements with key `k` of a sequence with a known head. */
  lemma WithKeyCons<T>(a: T, t: seq<T>, key: T -> int, k: int)
    ensures WithKey([a] + t, key, k) == (if key(a) == k then [a] else []) + WithKey(t, key, k)
  {
    assert ([a] + t)[1..] == t;
  }

  lemma {:induction false} WithKeyInsert<T>(x: T, s: seq<T>, key: T -> int, k: int)
    ensures WithKey(Insert(x, s, key), key, k)
         == (if key(x) == k then [x] else []) + WithKey(s, key, k)
    decreases |s|
  {
    if |s| == 0 {
    } else if key(x) <= key(s[0]) {
      WithKeyCons(x, s, key, k);
    } else {
      WithKeyInsert(x, s[1..], key, k);
      WithKeyPastHead(x, s, key, k);
    }
  }

  /** Inserting past the head: the head's key-`k` part and `x`'s commute,
      since at most one of the two has key `k`. */
  lemma WithKeyPastHead<T>(x: T, s: seq<T>, key: T -> int, k: int)
    requires |s| > 0 && key(x) > key(s[0])
    requires WithKey(Insert(x, s[1..], key), key, k) == (if key(x) == k then [x] else []) + WithKey(s[1..], key, k)
    ensures WithKey(Insert(x, s, key), key, k) == (if key(x) == k then [x] else []) + WithKey(s, key, k)
  {
    var rest := Insert(x, s[1..], key);
    var tail := WithKey(s[1..], key, k);
    assert Insert(x, s, key) == [s[0]] + rest;
    WithKeyCons(s[0], rest, key, k);
    assert s == [s[0]] + s[1..];
    WithKeyCons(s[0], s[1..], key, k);
    if key(x) == k {
      assert WithKey(Insert(x, s, key), key, k) == [x] + tail;
      assert WithKey(s, key, k) == tail;
    } else {
      assert WithKey(rest, key, k) == tail;
    }
  }

  /** Stability: for every key, the elements with that key appear in the
      sorted output in exactly their input order. */
  lemma {:induction false} SortByStable<T>(s: seq<T>, key: T -> int, k: int)
    ensures WithKey(SortBy(s, key), key, k) == WithKey(s, key, k)
    decreases |s|
  {
    if |s| > 0 {
      SortByStable(s[1..], key, k);
      WithKeyInsert(s[0], SortBy(s[1..], key), key, k);
    }
  }

  /** Sorting a sequence without repeated elements yields one without repeats. */
  lemma {:induction false} SortByDistinct<T>(s: seq<T>, key: T -> int)
    requires Distinct(s)
    ensures Distinct(SortBy(s, key))
  {
    var r := SortBy(s, key);
    forall i, j | 0 <= i < j < |r| ensures r[i] != r[j] {
      if r[i] == r[j] {
        MultisetTwice(r, i, j);
        assert multiset(s)[r[i]] >= 2;
        DistinctMultiplicity(s, r[i]);
        assert false;
      }
    }
  }

  lemma {:induction false} MultisetTwice<T>(s: seq<T>, i: int, j: int)
    requires 0 <= i < j < |s|
    requires s[i] == s[j]
    ensures multiset(s)[s[i]] >= 2
  {
    assert s == s[..j] + [s[j]] + s[j + 1..];
    assert s[i] in multiset(s[..j]) by {
      assert s[..j][i] == s[i];
    }
  }

  lemma {:induction false} DistinctMultiplicity<T>(s: seq<T>, x: T)
    requires Distinct(s)
    ensures multiset(s)[x] <= 1
    decreases |s|
  {
    if |s| > 0 {
      assert s == [s[0]] + s[1..];
      assert Distinct(s[1..]) by {
        forall i, j | 0 <= i < j < |s[1..]| ensures s[1..][i] != s[1..][j] {
          assert s[1..][i] == s[i + 1] && s[1..][j] == s[j + 1];
        }
      }
      DistinctMultiplicity(s[1..], x);
      if s[0] == x {
        assert x !in s[1..] by {
          forall t | 0 <= t < |s[1..]| ensures s[1..][t] != x {
            assert s[1..][t] == s[t + 1];
          }
        }
      }
    }
  }
}

=== FILE: time_range.dfy ===
/** Times of day. A `TimeRange` is a half-open interval [start, end) of
    minutes since midnight, stored, as in the application, by the hour and
    minute of each end. */
module TimeRanges {

  const MinutesPerHour := 60
  const MinutesPerDay := 24 * 60

  datatype TimeRange = TimeRange(startHour: int, startMinute: int, endHour: int, endMinute: int)
  {
    /** First component of `to_minutes`: the start in minutes since midnight. */
    function StartMinutes(): int
    {
      startHour * MinutesPerHour + startMinute
    }

    /** Second component of `to_minutes`: the (exclusive) end in minutes since midnight. */
    function EndMinutes(): int
    {
      endHour * MinutesPerHour + endMinute
    }

    /** Strict overlap of two half-open intervals. */
    predicate Overlaps(other: TimeRange)
    {
      StartMinutes() < other.EndMinutes() && other.StartMinutes() < EndMinutes()
    }

    /** The minute `hour:minute` lies in [start, end). */
    predicate ContainsTime(hour: int, minute: int)
    {
      StartMinutes() <= hour * MinutesPerHour + minute < EndMinutes()
    }
  }

  /** Splits minute offsets back into hour and minute fields, the way the slot
      search does with `// 60` and `% 60` (Python floors; for the positive
      divisor 60 that is the same as Dafny's Euclidean division). */
  function FromMinutes(start: int, end: int): (r: TimeRange)
    ensures r.StartMinutes() == start && r.EndMinutes() == end
    ensures 0 <= r.startMinute < MinutesPerHour && 0 <= r.endMinute < MinutesPerHour
  {
    TimeRange(start / MinutesPerHour, start % MinutesPerHour, end / MinutesPerHour, end % MinutesPerHour)
  }

  /** The hour/minute split is the only one with minutes in 0..59, so a range
      with normalised minute fields survives the round trip unchanged. */
  lemma FromMinutesToMinutes(r: TimeRange)
    requires 0 <= r.startMinute < MinutesPerHour && 0 <= r.endMinute < MinutesPerHour
    ensures FromMinutes(r.StartMinutes(), r.EndMinutes()) == r
  {
    DivModUnique(r.startHour, r.startMinute);
    DivModUnique(r.endHour, r.endMinute);
  }

  lemma DivModUnique(h: int, m: int)
    requires 0 <= m < MinutesPerHour
    ensures (h * MinutesPerHour + m) / MinutesPerHour == h
    ensures (h * MinutesPerHour + m) % MinutesPerHour == m
  {
  }

  lemma OverlapsSymmetric(a: TimeRange, b: TimeRange)
    ensures a.Overlaps(b) <==> b.Overlaps(a)
  {
  }

  /** Ranges that only touch (one ends where the other starts) do not overlap. */
  lemma TouchingRangesDoNotOverlap(a: TimeRange, b: TimeRange)
    requires a.EndMinutes() == b.StartMinutes()
    ensures !a.Overlaps(b) && !b.Overlaps(a)
  {
  }

  /** For non-empty ranges, overlap means exactly that some minute lies in
      both. (An empty or inverted range can still "overlap" by the strict
      comparison, which is why the ranges must be non-empty here.) */
  lemma OverlapsIffCommonMinute(a: TimeRange, b: TimeRange)
    requires a.StartMinutes() < a.EndMinutes() && b.StartMinutes() < b.EndMinutes()
    ensures a.Overlaps(b) <==> exists h, m :: a.ContainsTime(h, m) && b.ContainsTime(h, m)
  {
    if a.Overlaps(b) {
      var t := if a.StartMinutes() < b.StartMinutes() then b.StartMinutes() else a.StartMinutes();
      assert a.ContainsTime(t / MinutesPerHour, t % MinutesPerHour);
      assert b.ContainsTime(t / MinutesPerHour, t % MinutesPerHour);
    }
  }
}

=== FILE: users.dfy ===
/** Staff members and their weekly availability. */
module Users {
  import opened TimeRanges
  import opened Sorting

  const DefaultColor := "#4A90D9"

  /** The whole day, 00:00 - 24:00. */
  const FullDay := TimeRange(0, 0, 24, 0)

  /** A staff member. `availability` maps a weekday (0..6) to the ranges during
      which the member can work; a day may be missing or map to no ranges. */
  datatype User = User(
    name: string,
    maxShiftsPerWeek: int,
    availability: map<int, seq<TimeRange>>,
    color: string)
  {
    /** Available for [start, end) on `day` when one single stored range of that
        day covers the whole request; adjacent ranges are never combined. */
    function IsAvailable(day: int, startHour: int, startMinute: int, endHour: int, endMinute: int): (r: bool)
      ensures r <==> (day in availability &&
                      exists i :: 0 <= i < |availability[day]| &&
                        Covers(availability[day][i], startHour * MinutesPerHour + startMinute,
                               endHour * MinutesPerHour + endMinute))
    {
      if day !in availability then false
      else if |availability[day]| == 0 then false
      else AnyCovers(availability[day], startHour * MinutesPerHour + startMinute, endHour * MinutesPerHour + endMinute)
    }
  }

  /** `range` contains the requested minutes [start, end). */
  predicate Covers(range: TimeRange, start: int, end: int)
  {
    range.StartMinutes() <= start && range.EndMinutes() >= end
  }

  /** Scans the ranges of one day for one that covers [start, end). */
  function AnyCovers(ranges: seq<TimeRange>, start: int, end: int): (r: bool)
    ensures r <==> exists i :: 0 <= i < |ranges| && Covers(ranges[i], start, end)
  {
    if |ranges| == 0 then false
    else if Covers(ranges[0], start, end) then true
    else
      var rest := AnyCovers(ranges[1..], start, end);
      assert forall i :: 1 <= i < |ranges| ==> ranges[i] == ranges[1..][i - 1];
      rest
  }

  /** Availability used when a member is created without any: every weekday
      0..6 gets the full day. */
  function FullWeek(): (m: map<int, seq<TimeRange>>)
    ensures m.Keys == Week
    ensures forall d :: d in m ==> m[d] == [FullDay]
  {
    map[0 := [FullDay], 1 := [FullDay], 2 := [FullDay], 3 := [FullDay],
        4 := [FullDay], 5 := [FullDay], 6 := [FullDay]]
  }

  /** The weekday numbers, 0 = Monday .. 6 = Sunday. */
  const Week: set<int> := {0, 1, 2, 3, 4, 5, 6}

  /** Creates a member; an empty availability dictionary is replaced by the
      full week, any other one (even one whose days have no ranges) is kept. */
  function NewUser(name: string, maxShiftsPerWeek: int, availability: map<int, seq<TimeRange>>, color: string): (u: User)
    ensures u.name == name && u.maxShiftsPerWeek == maxShiftsPerWeek && u.color == color
    ensures |availability| > 0 ==> u.availability == availability
    ensures |availability| == 0 ==> u.availability.Keys == Week
    ensures |availability| == 0 ==> forall d :: d in u.availability ==> u.availability[d] == [FullDay]
  {
    User(name, maxShiftsPerWeek, if |availability| == 0 then FullWeek() else availability, color)
  }

  /** A member created with no availability can work any request that lies
      within one day on any weekday, and nothing on other day numbers. */
  lemma DefaultAvailabilityCoversWeek(name: string, maxShifts: int, color: string,
                                      day: int, sh: int, sm: int, eh: int, em: int)
    ensures NewUser(name, maxShifts, map[], color).IsAvailable(day, sh, sm, eh, em) <==>
      0 <= day < 7 && 0 <= sh * MinutesPerHour + sm && eh * MinutesPerHour + em <= MinutesPerDay
  {
    var u := NewUser(name, maxShifts, map[], color);
    if 0 <= day < 7 {
      assert u.availability[day] == [FullDay];
    }
  }

  // ---------------------------------------------------------------------------
  // Legacy one-hour blocks
  // ---------------------------------------------------------------------------

  /** Some range of `ranges` covers hour `h`, counting whole hours only. */
  predicate HourCovered(ranges: seq<TimeRange>, h: int)
  {
    exists r :: r in ranges && r.startHour <= h < r.endHour
  }

  /** Sorts the blocks by start hour (stably) and fuses each run in which a
      block starts exactly where the previous one ended. Minutes are ignored
      and every produced range starts and ends on the hour. */
  function MergeHourBlocks(blocks: seq<TimeRange>): (merged: seq<TimeRange>)
    ensures |merged| == 0 <==> |blocks| == 0
    ensures |merged| <= |blocks|
    ensures forall i :: 0 <= i < |merged| ==> merged[i].startMinute == 0 && merged[i].endMinute == 0
    ensures forall i :: 0 <= i < |merged| - 1 ==> merged[i].endHour != merged[i + 1].startHour
  {
    if |blocks| == 0 then []
    else
      var sorted := SortBy(blocks, StartHourKey);
      FuseRuns(sorted[1..], sorted[0].startHour, sorted[0].endHour)
  }

  function StartHourKey(r: TimeRange): int
  {
    r.startHour
  }

  /** Continues the current run [curStart, curEnd) over `rest`. */
  function FuseRuns(rest: seq<TimeRange>, curStart: int, curEnd: int): (merged: seq<TimeRange>)
    ensures 1 <= |merged| <= |rest| + 1
    ensures merged[0].startHour == curStart
    ensures forall i :: 0 <= i < |merged| ==> merged[i].startMinute == 0 && merged[i].endMinute == 0
    ensures forall i :: 0 <= i < |merged| - 1 ==> merged[i].endHour != merged[i + 1].startHour
  {
    if |rest| == 0 then [TimeRange(curStart, 0, curEnd, 0)]
    else if rest[0].startHour == curEnd then FuseRuns(rest[1..], curStart, rest[0].endHour)
    else [TimeRange(curStart, 0, curEnd, 0)] + FuseRuns(rest[1..], rest[0].startHour, rest[0].endHour)
  }

  lemma {:induction false} FuseRunsCoverage(rest: seq<TimeRange>, curStart: int, curEnd: int, h: int)
    requires curStart <= curEnd
    requires forall r :: r in rest ==> r.startHour <= r.endHour
    ensures HourCovered(FuseRuns(rest, curStart, curEnd), h) <==>
      (curStart <= h < curEnd) || HourCovered(rest, h)
    decreases |rest|
  {
    var merged := FuseRuns(rest, curStart, curEnd);
    if |rest| == 0 {
      assert merged == [TimeRange(curStart, 0, curEnd, 0)];
    } else {
      var b := rest[0];
      assert forall r :: r in rest <==> r == b || r in rest[1..];
      if b.startHour == curEnd {
        FuseRunsCoverage(rest[1..], curStart, b.endHour, h);
      } else {
        var tail := FuseRuns(rest[1..], b.startHour, b.endHour);
        FuseRunsCoverage(rest[1..], b.startHour, b.endHour, h);
        assert merged == [TimeRange(curStart, 0, curEnd, 0)] + tail;
        assert forall r :: r in merged <==> r == TimeRange(curStart, 0, curEnd, 0) || r in tail;
      }
    }
  }

  /** For well-formed blocks (start hour not after end hour) merging loses and
      adds no hour: an hour is covered by some merged range exactly when it
      was covered by some input block. */
  lemma MergeHourBlocksCoverage(blocks: seq<TimeRange>, h: int)
    requires forall r :: r in blocks ==> r.startHour <= r.endHour
    ensures HourCovered(MergeHourBlocks(blocks), h) <==> HourCovered(blocks, h)
  {
    if |blocks| > 0 {
      var sorted := SortBy(blocks, StartHourKey);
      assert forall r :: r in sorted <==> r in blocks by {
        assert forall r :: r in sorted <==> r in multiset(sorted);
        assert forall r :: r in blocks <==> r in multiset(blocks);
      }
      assert forall r :: r in sorted <==> r == sorted[0] || r in sorted[1..] by {
        assert sorted == [sorted[0]] + sorted[1..];
      }
      FuseRunsCoverage(sorted[1..], sorted[0].startHour, sorted[0].endHour, h);
    }
  }
}

=== FILE: wrappers.dfy ===
/** Optional values and error-carrying results. */
module Wrappers {

  datatype Option<T> = None | Some(value: T)

  datatype Result<T, E> = Ok(value: T) | Err(error: E)
}
